=== FILE: README.md ===
# Streamlit menu generator — Dafny model

`generate_app.py` is an interactive tool that builds a menu configuration for
a Streamlit app. A configuration is a list of main entries. Each entry is
either a category with sub-pages or a standalone page. The tool can:

- create a configuration from comma-separated names;
- edit it (add or remove a main entry or a sub-page);
- create each entry's folder and a placeholder script for each page;
- write a fixed navigation script, `generated_app.py`.

That script reads the configuration at run time. It registers every page in a
dictionary keyed by a slug and resolves the sidebar's category and option
choice to one registered page.

This project models those pieces as pure functions over immutable data and
proves what the code promises.

- **Operator input.** The operator's typed lines are an explicit `Input`
  stream (`Console`). Every prompt consumes one line. An answer is the line
  stripped and, for yes/no and menu choices, lower-cased. A stream that runs
  dry is Python's `EOFError` and ends the run (`EndOfInput`).
- **File system.** The file system is a value `FS`: a set of directories
  and a map from file path to contents (`FileSystem`).
- **Modules.**
  - `Text`: Python string methods.
  - `Console`: the file-name prompt.
  - `Menu`: the configuration datatypes and the editor's lookups.
  - `Create`: `create_new_config`.
  - `Editor`: the `modify_config` edits.
  - `Scaffolder`: `create_folders_and_files`.
  - `Navigation`: the registry and sidebar resolution of `generated_app.py`.
  - `CodeGen`: `generate_app_code`.
  - `Session`: `main`.

The docstring of `get_valid_filename` says spaces are replaced with
underscores, but the code only strips the answer and rejects it. The model
follows the code: `Console.CheckFilename` refuses any answer with a space
inside it.

## Model

| member | source | states |
|---|---|---|
| Text.Strip | generate_app.py:14 | `strip()` is empty exactly when every character of the line is whitespace, and otherwise leaves no whitespace at either end |
| Text.StripSlice | generate_app.py:14 | what `strip()` keeps is a slice of the line whose left and right remainders are whitespace only |
| Text.StripIdempotent | generate_app.py:14 | stripping an already stripped answer changes nothing |
| Text.Slug | generate_app.py:42 | the folder slug has the same length as the name, turns every space into `_`, lower-cases every other character, and so is already lower-case and holds no space |
| Text.SlugIdempotent | generate_app.py:42 | a slug is its own slug |
| Text.SlugOfSameName | generate_app.py:213 | two names the editor treats as equal (same after `lower()`) get the same folder slug |
| Text.Lower | generate_app.py:213 | `lower()` keeps the length and maps each character through the ASCII lower-casing |
| Text.SplitOn | generate_app.py:36 | `split(",")` gives at least one part and no part holds a comma |
| Text.ParseNames | generate_app.py:35-37 | every name parsed from a comma-separated line is non-empty and trimmed |
| Text.ParseJoinedNames | generate_app.py:35-37 | typing trimmed, comma-free names separated by commas yields exactly those names, in order |
| Text.ParseNamesOne | generate_app.py:35-37 | a line without a comma names its stripped text, or nothing when it is blank |
| Text.ParseNamesCons | generate_app.py:35-37 | the part before the first comma contributes its stripped text, unless blank, ahead of the names parsed from the rest of the line |
| Text.OnlyCommasNameNothing | generate_app.py:47 | a line of nothing but commas names nothing |
| Text.JoinSplit | generate_app.py:36 | joining the parts of a split at the separator rebuilds the line |
| Console.CheckFilename | generate_app.py:14-19 | one round of the prompt accepts the stripped answer, or the default when the answer is blank, exactly when it is a non-empty string over `[A-Za-z0-9_]` |
| Console.Answer | generate_app.py:114-120 | a yes/no or menu answer is empty exactly when the line is blank, and holds no upper-case ASCII letter |
| Console.AnswerIsY | generate_app.py:114-120 | an answer confirms (`== "y"`) exactly when the stripped line is `y` or `Y` |
| Console.AnswerIs | generate_app.py:114-120 | for any lower-case answer word `w`, the answer is `w` exactly when the stripped line equals `w` ignoring letter case, so `add`, `remove`, `main`, `sub`, `none` and `n` are told apart as typed |
| Console.ValidAnswerAcceptedAtOnce | generate_app.py:14-19 | a valid file name typed as the answer is accepted unchanged, whatever the default |
| Console.BadCharacterRefused | generate_app.py:18-23 | an answer whose stripped text holds any character outside `[A-Za-z0-9_]` is refused, so the prompt repeats |
| Console.GetValidFilename | generate_app.py:8-23 | only a valid file name is ever returned, and at least one line is consumed |
| Console.FirstAcceptedAnswer | generate_app.py:13-23 | the returned name is the first answer the check accepts and every earlier answer was refused; if input ends first, every answer given was refused |
| Console.BlankAnswerTakesDefault | generate_app.py:15-16 | with a valid default, a blank answer is accepted as the default at once |
| Menu.FilePathOwned | generate_app.py:57 | `folder/name.py` built from a valid name lies in the folder and the name can be read back from it |
| Menu.FirstMatch | generate_app.py:212-215 | the first index satisfying the test; none before it does; `None` only when no element does |
| Menu.FindEntry | generate_app.py:212-215 | the editor's lookup returns the first entry whose display equals the target ignoring case, and `None` only when none does |
| Menu.FindEntryAt | generate_app.py:282-285 | the lookup lands on an entry that matches when no earlier one does |
| Menu.FindPage | generate_app.py:331-334 | the same first-match, case-insensitive lookup over an entry's sub-pages |
| Menu.RemoveAt | generate_app.py:299 | `pop(i)` removes exactly element `i` and keeps the others in order |
| FileSystem.Ancestors | generate_app.py:441 | `makedirs` leaves the folder itself and every intermediate directory (each prefix ending just before a `/`), and nothing else |
| FileSystem.WriteIfAbsent | generate_app.py:444-448 | the path exists afterwards; an existing path is left as it was; otherwise only that file is added, with the given text |
| FileSystem.RemoveTree | generate_app.py:296-297 | every path equal to the folder string, or starting with it followed by `/`, disappears, nothing else changes, and a missing folder changes nothing; paths are compared as plain strings |
| FileSystem.RemoveFile | generate_app.py:345-346 | only that file disappears; directories and other files are untouched |
| Scaffolder.Run | generate_app.py:439-455 | the steps add exactly their directories, never alter an existing file, create files only at their target paths, and leave every target path existing |
| Scaffolder.RunNewFileLabel | generate_app.py:444-454 | a newly created file holds the placeholder naming the first step that targets its path |
| Scaffolder.RunIdempotent | generate_app.py:439-455 | running the same steps twice is running them once |
| Scaffolder.OpsShape | generate_app.py:439-455 | the steps for a configuration create exactly its folders and its page files |
| Scaffolder.Scaffold | generate_app.py:435-456 | every entry's folder and every page file exists afterwards, existing files are unchanged, and new files appear only at the configuration's page paths |
| Scaffolder.PagePathsOwned | generate_app.py:439-455 | every page path of a configuration is a page path of one of its entries |
| Scaffolder.ScaffoldIdempotent | generate_app.py:439-455 | scaffolding twice gives the same file system as scaffolding once |
| Scaffolder.ScaffoldNewFileLabel | generate_app.py:446-454 | a created file holds `# Empty script for D`, where D is the page's display for a sub-page and the entry's display for a standalone page |
| Scaffolder.OpsCaption | generate_app.py:439-454 | the steps label a path with the display of the first entry naming it: the entry's own display when it is standalone, the display of its first page with that path otherwise |
| Scaffolder.ScaffoldNewFileCaption | generate_app.py:439-454 | a file the scaffolder creates holds `# Empty script for D`, where D is the display of the first entry in configuration order naming the path when that entry is standalone, and the display of that entry's first page with the path otherwise |
| Scaffolder.AccountExample | generate_app.py:439-449 | from an empty tree, one category "Account" with page "Profile" yields the folder `account` and `account/profile.py` holding `# Empty script for Profile` |
| Create.ReadFileAndIcon | generate_app.py:53-61 | a page's path is `folder/<validated name>.py` and lies in the folder; its icon is the stripped line after the accepted name |
| Create.ReadPage | generate_app.py:49-62 | a sub-page keeps its display and its file lies in its folder; it uses two prompt lines at least |
| Create.ReadPageFile | generate_app.py:49-62 | a sub-page's file name is the one the prompt accepts against the slug default, and its icon is the next line stripped |
| Create.ReadLeaf | generate_app.py:66-77 | a standalone page's file lies in the folder; it uses two prompt lines at least |
| Create.ReadLeafFile | generate_app.py:66-77 | a standalone page's file name is the one the prompt accepts against the folder as default, and its icon is the next line stripped |
| Create.PagesForCons | generate_app.py:47-63 | a labelled page in the folder followed by pages labelled with the remaining names gives pages labelled with all the names |
| Create.PagesForOk | generate_app.py:47-63 | pages labelled with trimmed names and lying in the folder are well-formed sub-pages of that folder |
| Create.ReadPages | generate_app.py:47-63 | one page per name, in order, each labelled with its name and lying in the folder |
| Create.ReadPagesCons | generate_app.py:47-63 | the first page is the one read for the first name, and the rest are the pages read for the other names from the lines it leaves |
| Create.ReadPagesEach | generate_app.py:47-63 | each page is the one read for its name from some later part of the input, so its file name and icon are the ones typed for it |
| Create.ReadEntry | generate_app.py:39-78 | the entry is labelled with its name and filed under its slug, and is well formed when the name is trimmed and non-empty |
| Create.ReadEntryShape | generate_app.py:44-78 | the entry is multi-page exactly when the sub-page line is not blank, and then holds one page per parsed name, in order, each in the folder |
| Create.ReadEntryParts | generate_app.py:44-78 | a multi-page entry's pages are the pages read from its sub-page line, and a standalone entry's page is the file name and icon read under its folder, from the lines that follow |
| Create.LabelledCons | generate_app.py:39-79 | an entry labelled with the first name, followed by entries labelled with the rest, is labelled with all the names |
| Create.ReadEntries | generate_app.py:39-79 | one entry per name, in order, each under its slug; trimmed names give a well-formed configuration |
| Create.ReadEntriesCons | generate_app.py:39-79 | the first entry is the one read for the first name, and the rest are the entries read for the other names from the lines it leaves |
| Create.ReadEntriesEach | generate_app.py:39-79 | each entry is the one read for its name from some later part of the input |
| Create.CreateNewConfig | generate_app.py:26-79 | one entry per name surviving split, trim and drop-empty, in input order, labelled with that name and filed under its slug; the result is well formed |
| Create.CreatedEntriesRead | generate_app.py:26-79 | each entry of a new configuration is the entry read for its name from some later part of the input |
| Create.CreatedEntryShape | generate_app.py:26-79 | each entry of a new configuration has sub-pages exactly when the sub-page line answered for it is not blank, and then holds one page per name on that line |
| Create.OnlyCommasGiveNoPages | generate_app.py:46-63 | a sub-page line of only commas makes a multi-page entry with no pages |
| Editor.ReadNewEntry | generate_app.py:135-182 | the new entry is labelled with the name and filed under its slug, and is well formed when the name is trimmed and non-empty |
| Editor.ReadNewEntryShape | generate_app.py:135-182 | the new entry is multi-page exactly when the answer is `y`, and then holds one page per parsed name, in order, each in the folder |
| Editor.ReadNewEntryParts | generate_app.py:135-182 | a multi-page new entry's pages are the pages read from the line after the `y`, and a standalone one's page is the file name and icon read under its folder |
| Editor.AddMain | generate_app.py:129-205 | a blank name changes nothing; otherwise exactly one entry, labelled with the stripped name and filed under its slug, is appended, the earlier entries are unchanged, only that entry is scaffolded, that entry is the one the sub-menu prompts build from the following answers, and well-formedness is kept |
| Editor.AppendSub | generate_app.py:240-266 | a blank name changes nothing; otherwise one page with that name, lying in the entry's folder, is appended to that entry alone, its folder and file are created if absent, and well-formedness is kept |
| Editor.AppendSubPage | generate_app.py:245-257 | the appended page is the one read for the stripped name in the entry's folder, so its file name and icon are the ones typed for it |
| Editor.Convert | generate_app.py:229-236 | a converted entry is multi-page, keeps its display and folder, holds exactly the page made from its old one (titled with the entry's display), and stays well formed |
| Editor.AddSub | generate_app.py:206-266 | no match, or a declined conversion, changes nothing; a multi-page target goes straight to the sub-page prompts, and a standalone one whose conversion is accepted is converted and then goes to them; any change is confined to the first entry matching ignoring case; well-formedness is kept |
| Editor.ConversionKeptOnBlankName | generate_app.py:228-244 | an accepted conversion followed by a blank sub-page name keeps the conversion |
| Editor.ConvertThenAppend | generate_app.py:228-257 | after an accepted conversion the entry's pages are the old page titled with the entry's display, followed by the new page |
| Editor.RemoveMain | generate_app.py:277-306 | with confirmation, exactly the first entry matching ignoring case is removed, the others keep their order, and its folder is deleted with everything under it; no match or no confirmation changes nothing |
| Editor.RemoveLastMain | generate_app.py:281-302 | removing, with confirmation, a name only the last entry carries leaves exactly the entries before it |
| Editor.AddThenRemoveMain | generate_app.py:129-306 | adding a main entry under a fresh name and then removing that name with confirmation gives the configuration back |
| Editor.RemoveSub | generate_app.py:307-355 | a missing entry or a standalone entry changes nothing; a multi-page entry, the first matching ignoring case, goes to the page prompts; only that entry can change; well-formedness is kept |
| Editor.RemoveSubFrom | generate_app.py:326-355 | a page name matching none changes nothing; the first page matching ignoring case is dropped exactly when the operator confirms, and a declined confirmation changes nothing; any change is that drop; well-formedness is kept |
| Editor.DropPage | generate_app.py:343-348 | the confirmed removal pops that page from that entry alone, keeps the entry's display and folder, deletes only the page's file, and keeps well-formedness |
| Editor.Edit | generate_app.py:123-357 | after `add` or `remove`, a second answer `main` or `sub` selects the matching edit and any other leaves the state as it is; the lines it uses come from the front and well-formedness is kept |
| Editor.ModifyConfig | generate_app.py:102-360 | `none` or `n` stops with the state unchanged; an unrecognised answer is skipped; `add` or `remove` applies the edit the next answer selects and loops on its result; the loop reads input from the front and keeps a well-formed configuration well formed through any sequence of edits |
| Navigation.IconOf | generated_app.py:15-18 | an icon is attached exactly when it is a non-empty string |
| Navigation.EntryRegsExactly | generated_app.py:11-25 | an entry registers each sub-page under the slug of its display, titled with it, or its standalone page under the folder, titled with the entry's display, and nothing else |
| Navigation.Regs | generated_app.py:11-25 | the registrations in the order the loop makes them, entry by entry; it has no contract of its own, and `Navigation.RegsMember` and `Navigation.RegsSplit` characterise it |
| Navigation.RegsSplit | generated_app.py:11-25 | the registrations of a configuration are those of its first `b` entries followed by those of the rest |
| Navigation.RegsMember | generated_app.py:11-25 | the registrations of a configuration are exactly those of its entries |
| Navigation.LastIndex | generated_app.py:16 | the last registration under a key, and no later one uses that key |
| Navigation.AssignLast | generated_app.py:16 | after the assignments a key holds the page of the last registration under it |
| Navigation.AssignUntouched | generated_app.py:10-25 | a key no registration uses keeps its previous value |
| Navigation.AssignKeys | generated_app.py:10-25 | starting from an empty dictionary, a key ends up present exactly when some registration uses it |
| Navigation.Registry | generated_app.py:10-25 | the `pages` dictionary's keys are exactly the keys registered |
| Navigation.RegistryIsLastWrite | generated_app.py:10-25 | a key is in the registry exactly when some registration uses it, and then holds the last such registration |
| Navigation.RegistryFromEntries | generated_app.py:11-25 | every registered page was registered by some entry under that key, with the title and icon it gives |
| Navigation.Registered | generated_app.py:11-25 | every registration an entry makes leaves its key in the registry |
| Navigation.KeysConsistent | generated_app.py:14-38 | the key the sidebar recomputes for every sub-page, and every standalone folder, is in the registry |
| Navigation.Resolve | generated_app.py:30-39 | a resolved page is registered and comes from a category some entry displays exactly |
| Navigation.ResolveNeverMisses | generated_app.py:30-39 | any category the sidebar offers, with any option of the entry it selects, resolves to the page last registered under the recomputed key |
| Navigation.CategoryMatchIsExact | generated_app.py:31 | the sidebar's category match is case-sensitive while the editor's lookup is not |
| Navigation.SlugCollisionLastWins | generated_app.py:13-18 | for any two sub-pages in different entries whose displays are equal ignoring case, the shared key holds a page registered by the later entry or one after it, and choosing the earlier page, once the sidebar selects its entry, resolves to that page |
| Navigation.LaterEntryWins | generated_app.py:10-25 | once an entry registers under a key, the dictionary's page for that key comes from that entry or a later one |
| Navigation.SlugCollisionExample | generated_app.py:13-18 | example: with pages "Map" under A and "map" under B, choosing "Map" under A runs B's file |
| CodeGen.GenerateAppCode | generate_app.py:429-431 | the script file holds the joined text afterwards and no other path changes |
| CodeGen.GeneratedIgnoresConfig | generate_app.py:363-431 | the written text does not depend on the configuration |
| CodeGen.NoTrailingNewline | generate_app.py:427-431 | the text ends with the last line, `pg.run()`, with no newline after it |
| CodeGen.SlugExprShared | generate_app.py:383-420 | the registration line and the lookup line apply the same `.lower().replace(' ', '_')` expression |
| Session.LoadConfig | generate_app.py:82-99 | a blank path means `menu_config.json`; a stored configuration is used as it is, and a missing one falls back to creating a new one |
| Session.InitialConfig | generate_app.py:459-468 | the configuration is loaded when the first answer is `y` and created otherwise, and a created one is well formed |
| Session.WriteAndScaffold | generate_app.py:485-486 | after the script is written and the tree scaffolded, the script holds the fixed text, every folder and page file exists, every other earlier file keeps its contents, and the only new files are the script and page files of the configuration's entries |
| Session.Finish | generate_app.py:485-486 | the end of a run keeps the configuration and leaves the tree as `WriteAndScaffold` describes: script text, folders and page files in place, other earlier files unchanged, new files only the script and entries' page files |
| Session.RunTool | generate_app.py:459-488 | the run finishes the configuration loaded or created, as edited when the modify answer is `y` and untouched otherwise; a completed run leaves the script text, every entry's folder and every page file in place |
| Session.UneditedRunFiles | generate_app.py:459-486 | a run whose modify answer is not `y` keeps the configuration it settled, leaves every earlier file other than the script unchanged, and adds only the script and the page files of its entries |
| Session.EditedRunFiles | generate_app.py:459-486 | a run whose modify answer is `y` ends with the edited configuration, leaves every file the edits left, other than the script, unchanged, and adds only the script and the page files of its entries |
| Session.FreshSessionWellFormed | generate_app.py:459-478 | a run that creates its configuration ends with a well-formed one, whatever the edits |

## Left out

- Reading and writing JSON (generate_app.py:90-94, 480-483). Stored configurations are a map from path to configuration. The saved `menu_config.json` is not part of the file-system value.
- Prompts and messages (`print`, prompt texts, the configuration listing at generate_app.py:108-113). They do not change any state.
- Streamlit (`st.Page`, `st.selectbox`, `st.sidebar`, `st.navigation`, `pg.run()`). A registered page is a plain record. `Navigation.Resolve` returning `None` stands for the script failing to find a page: a `NameError`, `KeyError` or `AttributeError` in Python.
- `app_DeepCoSI/main.py` and `interface/app.py`. They are upload, subprocess and URL glue with no logic of the menu tool.
- Storage errors. The model does not represent `makedirs` on an empty path or through a file, writing to a directory path, or `rmtree` of a path that is a file. The `FS` value lets a path be both a directory and a file.
- FileSystem: paths are compared as plain strings, not normalised. A trailing `/`, a doubled `//`, a `.` segment or a case-insensitive file system make Python treat two spellings as one directory where the model keeps two. For example, `makedirs("reports/")` then `rmtree("reports/")` leaves `reports` in the model, while in Python it is gone. Normalising paths belongs to the operating system, which is outside the model.
- Unicode case mapping. `lower()` is ASCII-only here. `strip()` uses Python's whitespace code points.
- Partial effects when input ends. When the operator's lines run out during `modify_config`, `EndOfInput` carries no state, so the model drops the file-system changes already made by completed edits (a removed folder or file, a created placeholder). In Python those changes stay on disk while the configuration is never saved, which leaves disk and saved configuration out of step.
- Loaded entries with both or neither of `pages` and `page`, or with a missing `icon`. `Entry` always has exactly one shape, and an icon is always a string, with "" meaning none.
- The delete-before-pop order of the two remove edits (generate_app.py:295-299, 344-348). A sequential pure model cannot observe it.
- CodeGen.NoTrailingNewline: it shows the text ends with the last line, `pg.run()`. It does not show that splitting the text at newlines gives back exactly the 42 lines, because the solver cannot check that the literal lines hold no newline character.
- Create.ReadPages: its contract says each page lies in the folder but not that each display is trimmed. That part of well-formedness is stated by `Create.PagesForOk` and used one level up, by `Create.ReadEntry` and `Editor.ReadNewEntry`, for trimmed names.

=== FILE: codegen.dfy ===
/**
  `generate_app_code`: the navigation script is a fixed list of lines joined
  by newlines and written to `generated_app.py`. The configuration it is
  given does not influence the text; the script reads the configuration
  file when it runs (see the `Navigation` module).
 */
module CodeGen {
  import opened Text
  import opened Menu
  import opened FileSystem

  /** Where the script is written. */
  const OutputFile: string := "generated_app.py"

  /** The line that computes a sub-page's registry key. */
  const RegisterKeyLine: string := "            var_name = page['display'].lower().replace(' ', '_')"

  /** The line that computes the key of the option chosen in the sidebar. */
  const LookupKeyLine: string := "            var_name = option.lower().replace(' ', '_')"

  /** The lines of the script, in order. */
  const AppLines: seq<string> := [
      "import json",
      "import os",
      "import streamlit as st",
      "",
      "# Load the menu configuration from the JSON file",
      "with open('menu_config.json', 'r') as f:",
      "    menu_config = json.load(f)",
      "",
      "# Dynamically create st.Page definitions",
      "pages = {}",
      "for menu in menu_config:",
      "    if 'pages' in menu:",
      "        for page in menu['pages']:",
      RegisterKeyLine,
      "            if page.get('icon'):",
      "                pages[var_name] = st.Page(page['file_path'], title=page['display'], icon=page['icon'])",
      "            else:",
      "                pages[var_name] = st.Page(page['file_path'], title=page['display'])",
      "    else:",
      "        var_name = menu['folder']",
      "        page = menu['page']",
      "        if page.get('icon'):",
      "            pages[var_name] = st.Page(page['file_path'], title=menu['display'], icon=page['icon'])",
      "        else:",
      "            pages[var_name] = st.Page(page['file_path'], title=menu['display'])",
      "",
      "# Build navigation sidebar",
      "with st.sidebar:",
      "    st.header('Navigation')",
      "    category = st.selectbox('Select a category', [m['display'] for m in menu_config])",
      "    current_menu = next((m for m in menu_config if m['display'] == category), None)",
      "    if current_menu:",
      "        if 'pages' in current_menu:",
      "            option = st.selectbox('Select an option', [p['display'] for p in current_menu['pages']])",
      LookupKeyLine,
      "            current_page = pages[var_name]",
      "        else:",
      "            var_name = current_menu['folder']",
      "            current_page = pages[var_name]",
      "",
      "pg = st.navigation([current_page])",
      "pg.run()"
    ]

  /** The script text: `"\n".join(lines)`. */
  function AppCode(): string {
    Join(AppLines, '\n')
  }

  /** The slug expression the script applies. */
  const SlugExpr: string := ".lower().replace(' ', '_')"

  predicate EndsWith(s: string, suffix: string) {
    |suffix| <= |s| && s[|s| - |suffix|..] == suffix
  }

  /** `open(output_file, "w").write(...)`: the script replaces whatever file was there; nothing else changes. */
  function GenerateAppCode(cfg: Config, fs: FS): (r: FS)
    ensures r.dirs == fs.dirs
    ensures OutputFile in r.files && r.files[OutputFile] == AppCode()
    ensures forall p :: p != OutputFile ==> (p in r.files <==> p in fs.files)
    ensures forall p :: p != OutputFile && p in fs.files ==> r.files[p] == fs.files[p]
  {
    fs.(files := fs.files[OutputFile := AppCode()])
  }

  /** The configuration does not influence what is written. */
  lemma GeneratedIgnoresConfig(a: Config, b: Config, fs: FS)
    ensures GenerateAppCode(a, fs) == GenerateAppCode(b, fs)
  {
  }

  /** The text ends with `pg.run()`, with no newline after it. */
  lemma NoTrailingNewline()
    ensures EndsWith(AppCode(), "pg.run()")
    ensures |AppCode()| > 0 && AppCode()[|AppCode()| - 1] == ')'
  {
    JoinEndsWithLast(AppLines, '\n');
  }

  /**
    The line that registers a sub-page and the line that looks the chosen
    option up apply the same slug expression, so both compute `Slug`.
   */
  lemma SlugExprShared()
    ensures AppLines[13] == RegisterKeyLine && AppLines[34] == LookupKeyLine
    ensures EndsWith(RegisterKeyLine, SlugExpr)
    ensures EndsWith(LookupKeyLine, SlugExpr)
  {
  }
}

=== FILE: console.dfy ===
/**
  The operator's side of the prompts. Every `input()` consumes one line of an
  `Input` stream; a stream that runs dry is Python's `EOFError`, which ends
  the session.
 */
module Console {
  import opened Wrappers
  import opened Text

  /** The lines the operator types, in order. */
  type Input = seq<string>

  /** A value read from the operator together with the lines still unread. */
  datatype Step<T> = Step(value: T, rest: Input) | EndOfInput

  /** `rest` is what is left of `inp` after reading some lines from its front. */
  predicate Suffix(rest: Input, inp: Input) {
    |rest| <= |inp| && rest == inp[|inp| - |rest|..]
  }

  /** Reading from what is left of what is left is reading from the original. */
  lemma SuffixTrans(c: Input, b: Input, a: Input)
    requires Suffix(c, b) && Suffix(b, a)
    ensures Suffix(c, a)
  {
    assert a[|a| - |b|..][|b| - |c|..] == a[|a| - |c|..];
  }

  /** A yes/no or menu-choice answer: the line stripped and lower-cased. */
  function Answer(line: string): (r: string)
    ensures r == [] <==> forall i :: 0 <= i < |line| ==> IsSpace(line[i])
    ensures forall i :: 0 <= i < |r| ==> !('A' <= r[i] <= 'Z')
  {
    var s := Strip(line);
    forall i | 0 <= i < |s| ensures !('A' <= Lower(s)[i] <= 'Z') {
      LowerCharNotUpper(s[i]);
    }
    Lower(s)
  }

  /** A line confirms exactly when it reads `y` or `Y` once its surrounding whitespace is dropped. */
  lemma AnswerIsY(line: string)
    ensures Answer(line) == "y" <==> (Strip(line) == "y" || Strip(line) == "Y")
  {
    var s := Strip(line);
    if |s| == 1 {
      assert Lower(s) == [LowerChar(s[0])];
    }
  }

  /**
    A line gives the lower-case answer word `w` exactly when, once its
    surrounding whitespace is dropped, it reads `w` in any letter case.
   */
  lemma AnswerIs(line: string, w: string)
    requires Lower(w) == w
    ensures Answer(line) == w <==> SameName(Strip(line), w)
  {
  }

  /** The characters the file-name check admits: `[A-Za-z0-9_]`. */
  predicate IsFileChar(c: char) {
    'A' <= c <= 'Z' || 'a' <= c <= 'z' || '0' <= c <= '9' || c == '_'
  }

  /** `re.fullmatch(r"[A-Za-z0-9_]+", s)` succeeds. */
  predicate ValidFilename(s: string) {
    |s| > 0 && forall i :: 0 <= i < |s| ==> IsFileChar(s[i])
  }

  /**
    One round of the file-name prompt: the stripped answer, or the default
    when the answer is blank, is accepted exactly when it is a valid file name.
   */
  function CheckFilename(answer: string, default: string): (r: Option<string>)
    ensures r.Some? ==> ValidFilename(r.value)
    ensures Strip(answer) != [] ==> (r.Some? <==> ValidFilename(Strip(answer)))
    ensures Strip(answer) != [] && r.Some? ==> r.value == Strip(answer)
    ensures Strip(answer) == [] ==> (r.Some? <==> ValidFilename(default))
    ensures Strip(answer) == [] && r.Some? ==> r.value == default
  {
    var a := Strip(answer);
    var candidate := if a == [] then default else a;
    if ValidFilename(candidate) then Some(candidate) else None
  }

  /** A valid file name typed as the answer is accepted as it is, whatever the default. */
  lemma ValidAnswerAcceptedAtOnce(answer: string, default: string)
    requires ValidFilename(answer)
    ensures CheckFilename(answer, default) == Some(answer)
  {
    assert !IsSpace(answer[0]) && !IsSpace(answer[|answer| - 1]);
    StripName(answer);
  }

  /** An answer holding any character outside `[A-Za-z0-9_]` between its end spaces is refused. */
  lemma BadCharacterRefused(answer: string, default: string, i: int)
    requires 0 <= i < |Strip(answer)|
    requires !IsFileChar(Strip(answer)[i])
    ensures CheckFilename(answer, default) == None
  {
  }

  /**
    `get_valid_filename`: prompts until an answer passes `CheckFilename` and
    returns that name together with the lines after it.
   */
  function GetValidFilename(inp: Input, default: string): (r: Step<string>)
    ensures r.Step? ==> ValidFilename(r.value)
    ensures r.Step? ==> |r.rest| < |inp| && Suffix(r.rest, inp)
    decreases |inp|
  {
    if |inp| == 0 then EndOfInput
    else
      match CheckFilename(inp[0], default)
      case Some(name) => Step(name, inp[1..])
      case None => GetValidFilename(inp[1..], default)
  }

  /**
    The name `get_valid_filename` returns is the first answer `CheckFilename`
    accepts; every answer before it was refused. When the operator stops
    typing before a valid answer, every answer given was refused.
   */
  lemma {:induction false} FirstAcceptedAnswer(inp: Input, default: string)
    ensures var r := GetValidFilename(inp, default);
      r.Step? ==> CheckFilename(inp[|inp| - |r.rest| - 1], default) == Some(r.value)
    ensures var r := GetValidFilename(inp, default);
      r.Step? ==> forall k :: 0 <= k < |inp| - |r.rest| - 1 ==> CheckFilename(inp[k], default).None?
    ensures GetValidFilename(inp, default).EndOfInput? ==>
      forall k :: 0 <= k < |inp| ==> CheckFilename(inp[k], default).None?
    decreases |inp|
  {
    if |inp| > 0 && CheckFilename(inp[0], default).None? {
      var tail := inp[1..];
      FirstAcceptedAnswer(tail, default);
      var r := GetValidFilename(tail, default);
      assert GetValidFilename(inp, default) == r;
      if r.Step? {
        var n := |inp| - |r.rest| - 1;
        assert inp[n] == tail[n - 1];
        RefusedPrefix(inp, default, n);
      } else {
        RefusedPrefix(inp, default, |inp|);
      }
    }
  }

  /** A refused first answer followed by `n - 1` refused answers makes `n` refused answers. */
  lemma RefusedPrefix(inp: Input, default: string, n: nat)
    requires 0 < |inp| && n <= |inp|
    requires CheckFilename(inp[0], default).None?
    requires forall k :: 0 <= k < n - 1 ==> CheckFilename(inp[1..][k], default).None?
    ensures forall k :: 0 <= k < n ==> CheckFilename(inp[k], default).None?
  {
    forall k | 0 < k < n
      ensures CheckFilename(inp[k], default).None?
    {
      assert inp[k] == inp[1..][k - 1];
    }
  }

  /** With a valid default, a blank first answer is accepted as the default. */
  lemma BlankAnswerTakesDefault(inp: Input, default: string)
    requires |inp| > 0 && Strip(inp[0]) == []
    requires ValidFilename(default)
    ensures GetValidFilename(inp, default) == Step(default, inp[1..])
  {
  }
}

=== FILE: create.dfy ===
/**
  `create_new_config`: the operator types the main names on one line,
  separated by commas; for each name a line of sub-page names (blank for a
  standalone entry); for each page a file name (until valid) and an icon.
 */
module Create {
  import opened Text
  import opened Console
  import opened Menu

  /** Every name is trimmed and non-empty. */
  predicate AllNames(names: seq<string>) {
    forall i :: 0 <= i < |names| ==> IsName(names[i])
  }

  /**
    The two prompts every page has: a file name, checked until valid, and an
    icon, stripped. Yields the page's path inside `folder` and its icon.
   */
  function ReadFileAndIcon(folder: string, default: string, inp: Input): (r: Step<(string, string)>)
    ensures r.Step? ==> GetValidFilename(inp, default).Step?
    ensures r.Step? ==> r.value.0 == FilePath(folder, GetValidFilename(inp, default).value)
    ensures r.Step? ==> Owned(folder, r.value.0)
    ensures r.Step? ==> |r.rest| + 2 <= |inp| && Suffix(r.rest, inp)
    ensures r.Step? ==> r.value.1 == Strip(inp[|inp| - |r.rest| - 1])
  {
    match GetValidFilename(inp, default)
    case EndOfInput => EndOfInput
    case Step(name, rest) =>
      if |rest| == 0 then EndOfInput
      else
        FilePathOwned(folder, name);
        Step((FilePath(folder, name), Strip(rest[0])), rest[1..])
  }

  /** A sub-page called `name`; its file name defaults to the slug of `name`. */
  function ReadPage(folder: string, name: string, inp: Input): (r: Step<Page>)
    ensures r.Step? ==> r.value.display == name && Owned(folder, r.value.filePath)
    ensures r.Step? ==> |r.rest| + 2 <= |inp| && Suffix(r.rest, inp)
  {
    match ReadFileAndIcon(folder, Slug(name), inp)
    case EndOfInput => EndOfInput
    case Step((path, icon), rest) => Step(Page(name, path, icon), rest)
  }

  /** A sub-page's file name is the one the prompt accepts against the slug default, and its icon the next line stripped. */
  lemma ReadPageFile(folder: string, name: string, inp: Input)
    ensures var r := ReadPage(folder, name, inp);
      r.Step? ==>
        && GetValidFilename(inp, Slug(name)).Step?
        && r.value.filePath == FilePath(folder, GetValidFilename(inp, Slug(name)).value)
        && r.value.icon == Strip(inp[|inp| - |r.rest| - 1])
  {
  }

  /** The page of a standalone entry; its file name defaults to the folder. */
  function ReadLeaf(folder: string, inp: Input): (r: Step<Leaf>)
    ensures r.Step? ==> Owned(folder, r.value.filePath)
    ensures r.Step? ==> |r.rest| + 2 <= |inp| && Suffix(r.rest, inp)
  {
    match ReadFileAndIcon(folder, folder, inp)
    case EndOfInput => EndOfInput
    case Step((path, icon), rest) => Step(Leaf(path, icon), rest)
  }

  /** A standalone page's file name is the one the prompt accepts against the folder as default. */
  lemma ReadLeafFile(folder: string, inp: Input)
    ensures var r := ReadLeaf(folder, inp);
      r.Step? ==>
        && GetValidFilename(inp, folder).Step?
        && r.value.filePath == FilePath(folder, GetValidFilename(inp, folder).value)
        && r.value.icon == Strip(inp[|inp| - |r.rest| - 1])
  {
  }

  /** Page `j` is labelled with name `j` and lies in `folder`. */
  predicate PagesFor(folder: string, names: seq<string>, pages: seq<Page>) {
    |pages| == |names| && forall j :: 0 <= j < |pages| ==> pages[j].display == names[j] && Owned(folder, pages[j].filePath)
  }

  /** Labelling extends by one page at the front. */
  lemma PagesForCons(folder: string, names: seq<string>, p: Page, ps: seq<Page>)
    requires |names| > 0 && p.display == names[0] && Owned(folder, p.filePath)
    requires PagesFor(folder, names[1..], ps)
    ensures PagesFor(folder, names, [p] + ps)
  {
    var pages := [p] + ps;
    forall j | 0 < j < |pages|
      ensures pages[j].display == names[j] && Owned(folder, pages[j].filePath)
    {
      assert pages[j] == ps[j - 1] && names[j] == names[1..][j - 1];
    }
  }

  /** Labelled, trimmed pages inside the entry's folder are what a well-formed entry holds. */
  lemma PagesForOk(folder: string, names: seq<string>, pages: seq<Page>)
    requires PagesFor(folder, names, pages)
    ensures AllNames(names) ==> forall j :: 0 <= j < |pages| ==> PageOk(folder, pages[j])
  {
  }

  /** One page per name, in the order given, each inside `folder`. */
  function ReadPages(folder: string, names: seq<string>, inp: Input): (r: Step<seq<Page>>)
    ensures r.Step? ==> PagesFor(folder, names, r.value) && Suffix(r.rest, inp)
    decreases |names|
  {
    if |names| == 0 then Step([], inp)
    else
      match ReadPage(folder, names[0], inp)
      case EndOfInput => EndOfInput
      case Step(p, rest) =>
        match ReadPages(folder, names[1..], rest)
        case EndOfInput => EndOfInput
        case Step(ps, rest') =>
          PagesForCons(folder, names, p, ps);
          SuffixTrans(rest', rest, inp);
          Step([p] + ps, rest')
  }

  /**
    The first page is what `ReadPage` builds for the first name, and the
    others are what `ReadPages` builds for the other names from the lines
    that page leaves.
   */
  lemma ReadPagesCons(folder: string, names: seq<string>, inp: Input)
    ensures var r := ReadPages(folder, names, inp);
      r.Step? && |names| > 0 ==>
        && ReadPage(folder, names[0], inp).Step?
        && r.value[0] == ReadPage(folder, names[0], inp).value
        && ReadPages(folder, names[1..], ReadPage(folder, names[0], inp).rest) == Step(r.value[1..], r.rest)
  {
    var r := ReadPages(folder, names, inp);
    if r.Step? && |names| > 0 {
      var first := ReadPage(folder, names[0], inp);
      var tail := ReadPages(folder, names[1..], first.rest);
      assert r.value == [first.value] + tail.value;
      assert ([first.value] + tail.value)[1..] == tail.value;
    }
  }

  /** Page `p` is what `ReadPage` builds for `name` in `folder` from the lines `inp`. */
  predicate PageReadFrom(folder: string, name: string, inp: Input, p: Page) {
    ReadPage(folder, name, inp).Step? && ReadPage(folder, name, inp).value == p
  }

  /**
    Each page `ReadPages` returns is the page `ReadPage` builds for its name
    from the lines left over by the pages before it, so its file name and icon
    are the ones typed for it.
   */
  lemma {:induction false} ReadPagesEach(folder: string, names: seq<string>, inp: Input)
    ensures var r := ReadPages(folder, names, inp);
      r.Step? ==> forall j :: 0 <= j < |r.value| ==>
        exists rest :: Suffix(rest, inp) && PageReadFrom(folder, names[j], rest, r.value[j])
    decreases |names|
  {
    var r := ReadPages(folder, names, inp);
    if r.Step? && |names| > 0 {
      var first := ReadPage(folder, names[0], inp);
      ReadPagesCons(folder, names, inp);
      ReadPagesEach(folder, names[1..], first.rest);
      forall j | 0 <= j < |r.value|
        ensures exists rest :: Suffix(rest, inp) && PageReadFrom(folder, names[j], rest, r.value[j])
      {
        if j == 0 {
          assert Suffix(inp, inp) && PageReadFrom(folder, names[0], inp, r.value[0]);
        } else {
          var rest :| Suffix(rest, first.rest) && PageReadFrom(folder, names[1..][j - 1], rest, r.value[1..][j - 1]);
          SuffixTrans(rest, first.rest, inp);
          assert PageReadFrom(folder, names[j], rest, r.value[j]);
        }
      }
    }
  }

  /** One main entry of `create_new_config`, labelled `name` and filed under its slug. */
  function ReadEntry(name: string, inp: Input): (r: Step<Entry>)
    ensures r.Step? ==> |inp| > 0 && |r.rest| < |inp| && Suffix(r.rest, inp)
    ensures r.Step? ==> r.value.display == name && r.value.folder == Slug(name)
    ensures r.Step? && IsName(name) ==> EntryOk(r.value)
  {
    if |inp| == 0 then EndOfInput
    else
      var folder := Slug(name);
      if Strip(inp[0]) != [] then
        match ReadPages(folder, ParseNames(inp[0]), inp[1..])
        case EndOfInput => EndOfInput
        case Step(pages, rest) =>
          PagesForOk(folder, ParseNames(inp[0]), pages);
          SuffixTrans(rest, inp[1..], inp);
          Step(MultiPage(name, folder, pages), rest)
      else
        match ReadLeaf(folder, inp[1..])
        case EndOfInput => EndOfInput
        case Step(leaf, rest) =>
          SuffixTrans(rest, inp[1..], inp);
          Step(Standalone(name, folder, leaf), rest)
  }

  /**
    An entry is multi-page exactly when its sub-page line is not blank, and
    then holds one page per name on that line, in order.
   */
  lemma ReadEntryShape(name: string, inp: Input)
    ensures var r := ReadEntry(name, inp);
      r.Step? ==> (r.value.MultiPage? <==> Strip(inp[0]) != [])
    ensures var r := ReadEntry(name, inp);
      r.Step? && r.value.MultiPage? ==> PagesFor(r.value.folder, ParseNames(inp[0]), r.value.pages)
  {
  }

  /**
    A multi-page entry's pages are what `ReadPages` builds from its sub-page
    line, and a standalone entry's page is what `ReadLeaf` builds under its
    folder, both from the lines after that line.
   */
  lemma ReadEntryParts(name: string, inp: Input)
    ensures var r := ReadEntry(name, inp);
      r.Step? && r.value.MultiPage? ==> ReadPages(Slug(name), ParseNames(inp[0]), inp[1..]) == Step(r.value.pages, r.rest)
    ensures var r := ReadEntry(name, inp);
      r.Step? && r.value.Standalone? ==> ReadLeaf(Slug(name), inp[1..]) == Step(r.value.page, r.rest)
  {
  }

  /** Entry `i` of `cfg` is labelled with name `i` and filed under its slug. */
  predicate Labelled(cfg: Config, names: seq<string>) {
    |cfg| == |names| && forall i :: 0 <= i < |cfg| ==> cfg[i].display == names[i] && cfg[i].folder == Slug(names[i])
  }

  /** Labelling extends by one entry at the front. */
  lemma LabelledCons(e: Entry, es: Config, names: seq<string>)
    requires |names| > 0 && e.display == names[0] && e.folder == Slug(names[0])
    requires Labelled(es, names[1..])
    ensures Labelled([e] + es, names)
  {
    var cfg := [e] + es;
    forall i | 0 < i < |cfg|
      ensures cfg[i].display == names[i] && cfg[i].folder == Slug(names[i])
    {
      assert cfg[i] == es[i - 1] && names[i] == names[1..][i - 1];
    }
  }

  /** One entry per name, in the order given. */
  function ReadEntries(names: seq<string>, inp: Input): (r: Step<Config>)
    ensures r.Step? ==> Labelled(r.value, names) && Suffix(r.rest, inp)
    ensures r.Step? && AllNames(names) ==> WellFormed(r.value)
    decreases |names|
  {
    if |names| == 0 then Step([], inp)
    else
      match ReadEntry(names[0], inp)
      case EndOfInput => EndOfInput
      case Step(e, rest) =>
        match ReadEntries(names[1..], rest)
        case EndOfInput => EndOfInput
        case Step(es, rest') =>
          LabelledCons(e, es, names);
          assert AllNames(names) ==> IsName(names[0]) && AllNames(names[1..]);
          WellFormedCons(e, es);
          SuffixTrans(rest', rest, inp);
          Step([e] + es, rest')
  }

  /**
    The first entry is what `ReadEntry` builds for the first name, and the
    others are what `ReadEntries` builds for the other names from the lines
    that entry leaves.
   */
  lemma ReadEntriesCons(names: seq<string>, inp: Input)
    ensures var r := ReadEntries(names, inp);
      r.Step? && |names| > 0 ==>
        && ReadEntry(names[0], inp).Step?
        && r.value[0] == ReadEntry(names[0], inp).value
        && ReadEntries(names[1..], ReadEntry(names[0], inp).rest) == Step(r.value[1..], r.rest)
  {
    var r := ReadEntries(names, inp);
    if r.Step? && |names| > 0 {
      var first := ReadEntry(names[0], inp);
      var tail := ReadEntries(names[1..], first.rest);
      assert r.value == [first.value] + tail.value;
      assert ([first.value] + tail.value)[1..] == tail.value;
    }
  }

  /** Entry `e` is what `ReadEntry` builds for `name` from the lines `inp`. */
  predicate ReadFrom(name: string, inp: Input, e: Entry) {
    ReadEntry(name, inp).Step? && ReadEntry(name, inp).value == e
  }

  /**
    Each entry `ReadEntries` returns is the entry `ReadEntry` builds for its
    name from the lines left over by the entries before it.
   */
  lemma {:induction false} ReadEntriesEach(names: seq<string>, inp: Input)
    ensures var r := ReadEntries(names, inp);
      r.Step? ==> forall i :: 0 <= i < |r.value| ==>
        exists rest :: Suffix(rest, inp) && ReadFrom(names[i], rest, r.value[i])
    decreases |names|
  {
    var r := ReadEntries(names, inp);
    if r.Step? && |names| > 0 {
      var first := ReadEntry(names[0], inp);
      ReadEntriesCons(names, inp);
      ReadEntriesEach(names[1..], first.rest);
      forall i | 0 <= i < |r.value|
        ensures exists rest :: Suffix(rest, inp) && ReadFrom(names[i], rest, r.value[i])
      {
        if i == 0 {
          assert Suffix(inp, inp) && ReadFrom(names[0], inp, r.value[0]);
        } else {
          var rest :| Suffix(rest, first.rest) && ReadFrom(names[1..][i - 1], rest, r.value[1..][i - 1]);
          SuffixTrans(rest, first.rest, inp);
          assert ReadFrom(names[i], rest, r.value[i]);
        }
      }
    }
  }

  /**
    `create_new_config`: one entry per name of the first line that survives
    splitting, trimming and dropping blanks, in input order, each labelled
    with that name and filed under its slug; the result is well formed.
   */
  function CreateNewConfig(inp: Input): (r: Step<Config>)
    ensures r.Step? ==> |inp| > 0 && |r.rest| < |inp| && Suffix(r.rest, inp)
    ensures r.Step? ==> |r.value| == |ParseNames(inp[0])|
    ensures r.Step? ==> forall i :: 0 <= i < |r.value| ==> r.value[i].display == ParseNames(inp[0])[i]
    ensures r.Step? ==> forall i :: 0 <= i < |r.value| ==> r.value[i].folder == Slug(r.value[i].display)
    ensures r.Step? ==> WellFormed(r.value)
  {
    if |inp| == 0 then EndOfInput
    else
      var r := ReadEntries(ParseNames(inp[0]), inp[1..]);
      if r.Step? then SuffixTrans(r.rest, inp[1..], inp); r else r
  }

  /**
    Each entry of a new configuration is the entry `ReadEntry` builds for its
    name from some later part of the input.
   */
  lemma CreatedEntriesRead(inp: Input)
    ensures var r := CreateNewConfig(inp);
      r.Step? ==> forall i :: 0 <= i < |r.value| ==>
        exists rest :: Suffix(rest, inp) && ReadFrom(ParseNames(inp[0])[i], rest, r.value[i])
  {
    var r := CreateNewConfig(inp);
    if r.Step? {
      ReadEntriesEach(ParseNames(inp[0]), inp[1..]);
      forall i | 0 <= i < |r.value|
        ensures exists rest :: Suffix(rest, inp) && ReadFrom(ParseNames(inp[0])[i], rest, r.value[i])
      {
        var rest :| Suffix(rest, inp[1..]) && ReadFrom(ParseNames(inp[0])[i], rest, r.value[i]);
        SuffixTrans(rest, inp[1..], inp);
      }
    }
  }

  /**
    Entry `i` of a new configuration has sub-pages exactly when the sub-page
    line answered for it is not blank, and then one page per name on it.
   */
  lemma CreatedEntryShape(inp: Input, i: nat)
    requires CreateNewConfig(inp).Step? && i < |CreateNewConfig(inp).value|
    ensures var e := CreateNewConfig(inp).value[i];
      exists rest :: && Suffix(rest, inp) && |rest| > 0
        && (e.MultiPage? <==> Strip(rest[0]) != [])
        && (e.MultiPage? ==> PagesFor(e.folder, ParseNames(rest[0]), e.pages))
  {
    CreatedEntriesRead(inp);
    var e := CreateNewConfig(inp).value[i];
    var rest :| Suffix(rest, inp) && ReadFrom(ParseNames(inp[0])[i], rest, e);
    ReadEntryShape(ParseNames(inp[0])[i], rest);
  }

  /** A sub-page line of nothing but commas makes a multi-page entry with no pages. */
  lemma OnlyCommasGiveNoPages(name: string, inp: Input)
    requires |inp| > 0 && |inp[0]| > 0
    requires forall i :: 0 <= i < |inp[0]| ==> inp[0][i] == ','
    ensures ReadEntry(name, inp) == Step(MultiPage(name, Slug(name), []), inp[1..])
  {
    assert !IsSpace(inp[0][0]);
    OnlyCommasNameNothing(inp[0]);
  }
}

=== FILE: editor.dfy ===
/**
  `modify_config`: the add/remove loop over an existing configuration. Each
  edit reads its answers from the operator's lines and changes the
  configuration and the file system together. Main entries and sub-pages are
  looked up by display name, ignoring case, first match.
 */
module Editor {
  import opened Wrappers
  import opened Text
  import opened Console
  import opened Menu
  import opened FileSystem
  import opened Scaffolder
  import opened Create

  /** The configuration being edited and the file system it is scaffolded into. */
  datatype State = State(cfg: Config, fs: FS)

  /** `next` is `prev` with element `i` popped; the others keep their order. */
  predicate RemovedAt<T(==)>(prev: seq<T>, next: seq<T>, i: nat) {
    i < |prev| && |next| + 1 == |prev| && next[..i] == prev[..i] && next[i..] == prev[i + 1..]
  }

  /** Only entry `i` may differ between `prev` and `next`. */
  predicate OthersUnchanged(prev: Config, next: Config, i: nat) {
    |next| == |prev| && forall j :: 0 <= j < |prev| && j != i ==> next[j] == prev[j]
  }

  /** Replacing entry `i` leaves the others alone. */
  lemma UpdateOthersUnchanged(cfg: Config, i: nat, e: Entry)
    requires i < |cfg|
    ensures OthersUnchanged(cfg, cfg[i := e], i)
  {
  }

  /** Replacing one entry by a well-formed one keeps the configuration well formed. */
  lemma WellFormedUpdate(prev: Config, next: Config, i: nat)
    ensures WellFormed(prev) && OthersUnchanged(prev, next, i) && i < |next| && EntryOk(next[i]) ==> WellFormed(next)
  {
  }

  /** Removing an entry keeps the configuration well formed. */
  lemma WellFormedRemoved(prev: Config, next: Config, i: nat)
    ensures WellFormed(prev) && RemovedAt(prev, next, i) ==> WellFormed(next)
  {
    if WellFormed(prev) && RemovedAt(prev, next, i) {
      forall j | 0 <= j < |next|
        ensures EntryOk(next[j])
      {
        if j < i {
          assert next[j] == next[..i][j] == prev[j];
        } else {
          assert next[j] == next[i..][j - i] == prev[j + 1];
        }
      }
    }
  }

  /** `RemoveAt` removes exactly element `i`. */
  lemma RemovedAtShape<T>(xs: seq<T>, i: nat)
    requires i < |xs|
    ensures RemovedAt(xs, RemoveAt(xs, i), i)
  {
    var r := RemoveAt(xs, i);
    assert r[..i] == xs[..i];
    assert r[i..] == xs[i + 1..];
  }

  /**
    The entry `add main` builds once the name is known: multi-page when the
    operator answers `y` (one page per name on the next line, possibly none),
    standalone otherwise.
   */
  function ReadNewEntry(name: string, inp: Input): (r: Step<Entry>)
    ensures r.Step? ==> |inp| > 0 && |r.rest| < |inp| && Suffix(r.rest, inp)
    ensures r.Step? ==> r.value.display == name && r.value.folder == Slug(name)
    ensures r.Step? && IsName(name) ==> EntryOk(r.value)
  {
    if |inp| == 0 then EndOfInput
    else
      var folder := Slug(name);
      if Answer(inp[0]) == "y" then
        if |inp| == 1 then EndOfInput
        else
          match ReadPages(folder, ParseNames(inp[1]), inp[2..])
          case EndOfInput => EndOfInput
          case Step(pages, rest) =>
            PagesForOk(folder, ParseNames(inp[1]), pages);
            SuffixTrans(rest, inp[2..], inp);
            Step(MultiPage(name, folder, pages), rest)
      else
        match ReadLeaf(folder, inp[1..])
        case EndOfInput => EndOfInput
        case Step(leaf, rest) =>
          SuffixTrans(rest, inp[1..], inp);
          Step(Standalone(name, folder, leaf), rest)
  }

  /**
    The new entry is multi-page exactly when the operator answers `y`, and
    then holds one page per name on the next line, in order.
   */
  lemma ReadNewEntryShape(name: string, inp: Input)
    ensures var r := ReadNewEntry(name, inp);
      r.Step? ==> (r.value.MultiPage? <==> Answer(inp[0]) == "y")
    ensures var r := ReadNewEntry(name, inp);
      r.Step? && r.value.MultiPage? ==> |inp| > 1 && PagesFor(r.value.folder, ParseNames(inp[1]), r.value.pages)
  {
  }

  /**
    A multi-page new entry's pages are what `ReadPages` builds from the line
    after the `y`, and a standalone one's page is what `ReadLeaf` builds under
    its folder from the lines after the answer.
   */
  lemma ReadNewEntryParts(name: string, inp: Input)
    ensures var r := ReadNewEntry(name, inp);
      r.Step? && r.value.MultiPage? ==> ReadPages(Slug(name), ParseNames(inp[1]), inp[2..]) == Step(r.value.pages, r.rest)
    ensures var r := ReadNewEntry(name, inp);
      r.Step? && r.value.Standalone? ==> ReadLeaf(Slug(name), inp[1..]) == Step(r.value.page, r.rest)
  {
    var r := ReadNewEntry(name, inp);
    if r.Step? {
      if Answer(inp[0]) == "y" {
        assert r.value.MultiPage?;
        var pages := ReadPages(Slug(name), ParseNames(inp[1]), inp[2..]);
        assert pages == Step(r.value.pages, r.rest);
      } else {
        assert r.value.Standalone?;
        var leaf := ReadLeaf(Slug(name), inp[1..]);
        assert leaf == Step(r.value.page, r.rest);
      }
    }
  }

  /**
    `add main`: a blank name changes nothing; otherwise exactly one entry,
    named by the stripped answer and filed under its slug, is appended, the
    existing entries stay as they were, and the new entry alone is scaffolded.
   */
  function AddMain(st: State, inp: Input): (r: Step<State>)
    ensures r.Step? ==> |inp| > 0 && |r.rest| < |inp| && Suffix(r.rest, inp)
    ensures |inp| > 0 && Strip(inp[0]) == [] ==> r == Step(st, inp[1..])
    ensures r.Step? && |inp| > 0 && Strip(inp[0]) != [] ==>
      && |r.value.cfg| == |st.cfg| + 1
      && r.value.cfg[..|st.cfg|] == st.cfg
      && r.value.cfg[|st.cfg|].display == Strip(inp[0])
      && r.value.cfg[|st.cfg|].folder == Slug(Strip(inp[0]))
      && r.value.fs == Scaffold([r.value.cfg[|st.cfg|]], st.fs)
    ensures r.Step? && |inp| > 0 && Strip(inp[0]) != [] ==>
      ReadNewEntry(Strip(inp[0]), inp[1..]) == Step(r.value.cfg[|st.cfg|], r.rest)
    ensures r.Step? && WellFormed(st.cfg) ==> WellFormed(r.value.cfg)
  {
    if |inp| == 0 then EndOfInput
    else
      var name := Strip(inp[0]);
      if name == [] then Step(st, inp[1..])
      else
        match ReadNewEntry(name, inp[1..])
        case EndOfInput => EndOfInput
        case Step(e, rest) =>
          SuffixTrans(rest, inp[1..], inp);
          WellFormedSnoc(st.cfg, e);
          Step(State(st.cfg + [e], Scaffold([e], st.fs)), rest)
  }

  /**
    The page list an entry offers before a sub-page is appended: its own pages,
    or, for a standalone entry, one page carrying the entry's display and the
    old page's path and icon.
   */
  function BasePages(e: Entry): seq<Page> {
    match e
    case MultiPage(_, _, pages) => pages
    case Standalone(d, _, leaf) => [Page(d, leaf.filePath, leaf.icon)]
  }

  /** A standalone entry turned into a multi-page entry. */
  function Convert(e: Entry): (r: Entry)
    ensures r.MultiPage? && r.display == e.display && r.folder == e.folder
    ensures r.pages == BasePages(e)
    ensures EntryOk(e) ==> EntryOk(r)
  {
    MultiPage(e.display, e.folder, BasePages(e))
  }

  /**
    The sub-page prompts once the target entry `i` is multi-page: a blank name
    changes nothing; otherwise exactly one page, named by the stripped answer
    and filed in the entry's folder, is appended to that entry alone, and its
    file is created if absent.
   */
  function AppendSub(st: State, i: nat, inp: Input): (r: Step<State>)
    requires i < |st.cfg| && st.cfg[i].MultiPage?
    ensures r.Step? ==> |inp| > 0 && |r.rest| < |inp| && Suffix(r.rest, inp)
    ensures |inp| > 0 && Strip(inp[0]) == [] ==> r == Step(st, inp[1..])
    ensures r.Step? ==> OthersUnchanged(st.cfg, r.value.cfg, i)
    ensures r.Step? && |inp| > 0 && Strip(inp[0]) != [] ==>
      var e := st.cfg[i];
      var e' := r.value.cfg[i];
      && e'.MultiPage? && e'.display == e.display && e'.folder == e.folder
      && |e'.pages| == |e.pages| + 1
      && e'.pages[..|e.pages|] == e.pages
      && e'.pages[|e.pages|].display == Strip(inp[0])
      && Owned(e.folder, e'.pages[|e.pages|].filePath)
      && r.value.fs == Run([MkDir(e.folder), Create(e'.pages[|e.pages|].filePath, Strip(inp[0]))], st.fs)
    ensures r.Step? && WellFormed(st.cfg) ==> WellFormed(r.value.cfg)
  {
    if |inp| == 0 then EndOfInput
    else
      var name := Strip(inp[0]);
      if name == [] then Step(st, inp[1..])
      else
        var e := st.cfg[i];
        match ReadPage(e.folder, name, inp[1..])
        case EndOfInput => EndOfInput
        case Step(p, rest) =>
          SuffixTrans(rest, inp[1..], inp);
          var e' := e.(pages := e.pages + [p]);
          var cfg := st.cfg[i := e'];
          UpdateOthersUnchanged(st.cfg, i, e');
          EntryOkSnoc(e, p);
          WellFormedUpdate(st.cfg, cfg, i);
          Step(State(cfg, Run([MkDir(e.folder), Create(p.filePath, name)], st.fs)), rest)
  }

  /**
    The appended page is what `ReadPage` builds in the entry's folder for the
    stripped name from the lines after it, so its file name and icon are the
    ones typed for it.
   */
  lemma AppendSubPage(st: State, i: nat, inp: Input)
    requires i < |st.cfg| && st.cfg[i].MultiPage?
    ensures var r := AppendSub(st, i, inp);
      r.Step? && |inp| > 0 && Strip(inp[0]) != [] ==>
        ReadPage(st.cfg[i].folder, Strip(inp[0]), inp[1..]) == Step(r.value.cfg[i].pages[|st.cfg[i].pages|], r.rest)
  {
  }

  /**
    `add sub`: no entry matching the stripped target changes nothing; a
    standalone target whose conversion is declined changes nothing; an
    accepted conversion turns the target into a multi-page entry first (and
    stays even when the sub-page name then comes back blank). Only the target
    entry can change.
   */
  function AddSub(st: State, inp: Input): (r: Step<State>)
    ensures r.Step? ==> |inp| > 0 && |r.rest| < |inp| && Suffix(r.rest, inp)
    ensures |inp| > 0 && FindEntry(st.cfg, Strip(inp[0])).None? ==> r == Step(st, inp[1..])
    ensures |inp| > 1 && FindEntry(st.cfg, Strip(inp[0])).Some? ==>
      var i := FindEntry(st.cfg, Strip(inp[0])).value;
      st.cfg[i].Standalone? && Answer(inp[1]) != "y" ==> r == Step(st, inp[2..])
    ensures |inp| > 0 && FindEntry(st.cfg, Strip(inp[0])).Some? ==>
      var i := FindEntry(st.cfg, Strip(inp[0])).value;
      st.cfg[i].MultiPage? ==> r == AppendSub(st, i, inp[1..])
    ensures |inp| > 1 && FindEntry(st.cfg, Strip(inp[0])).Some? ==>
      var i := FindEntry(st.cfg, Strip(inp[0])).value;
      st.cfg[i].Standalone? && Answer(inp[1]) == "y" ==>
        r == AppendSub(State(st.cfg[i := Convert(st.cfg[i])], st.fs), i, inp[2..])
    ensures r.Step? && r.value.cfg != st.cfg ==>
      && FindEntry(st.cfg, Strip(inp[0])).Some?
      && OthersUnchanged(st.cfg, r.value.cfg, FindEntry(st.cfg, Strip(inp[0])).value)
    ensures r.Step? && WellFormed(st.cfg) ==> WellFormed(r.value.cfg)
  {
    if |inp| == 0 then EndOfInput
    else
      match FindEntry(st.cfg, Strip(inp[0]))
      case None => Step(st, inp[1..])
      case Some(i) =>
        var e := st.cfg[i];
        if e.MultiPage? then
          var r := AppendSub(st, i, inp[1..]);
          if r.Step? then SuffixTrans(r.rest, inp[1..], inp); r else r
        else if |inp| == 1 then EndOfInput
        else if Answer(inp[1]) != "y" then Step(st, inp[2..])
        else
          var cfg := st.cfg[i := Convert(e)];
          UpdateOthersUnchanged(st.cfg, i, Convert(e));
          WellFormedUpdate(st.cfg, cfg, i);
          var r := AppendSub(State(cfg, st.fs), i, inp[2..]);
          if r.Step? then SuffixTrans(r.rest, inp[2..], inp); r else r
  }

  /**
    An accepted conversion followed by a blank sub-page name keeps the
    conversion: the entry now holds the single page made from its old one.
   */
  lemma ConversionKeptOnBlankName(st: State, inp: Input, i: nat)
    requires |inp| > 2 && FindEntry(st.cfg, Strip(inp[0])) == Some(i)
    requires st.cfg[i].Standalone?
    requires Answer(inp[1]) == "y" && Strip(inp[2]) == []
    ensures AddSub(st, inp) == Step(State(st.cfg[i := Convert(st.cfg[i])], st.fs), inp[3..])
  {
    var conv := State(st.cfg[i := Convert(st.cfg[i])], st.fs);
    assert inp[2..][1..] == inp[3..];
    assert AppendSub(conv, i, inp[2..]) == Step(conv, inp[3..]);
    assert AddSub(st, inp) == AppendSub(conv, i, inp[2..]);
  }

  /**
    Adding a sub-page to a standalone entry with the conversion accepted: the
    entry's pages become the page made from its old one (titled with the
    entry's display) followed by the new page.
   */
  lemma ConvertThenAppend(st: State, inp: Input, i: nat)
    requires |inp| > 2 && FindEntry(st.cfg, Strip(inp[0])) == Some(i)
    requires st.cfg[i].Standalone?
    requires Answer(inp[1]) == "y" && Strip(inp[2]) != []
    requires AddSub(st, inp).Step?
    ensures var e := st.cfg[i];
      var e' := AddSub(st, inp).value.cfg[i];
      && e'.MultiPage? && e'.display == e.display && e'.folder == e.folder
      && |e'.pages| == 2
      && e'.pages[0] == Page(e.display, e.page.filePath, e.page.icon)
      && e'.pages[1].display == Strip(inp[2])
      && Owned(e.folder, e'.pages[1].filePath)
  {
    var cfg := st.cfg[i := Convert(st.cfg[i])];
    var r := AppendSub(State(cfg, st.fs), i, inp[2..]);
    assert AddSub(st, inp) == r;
  }

  /**
    `remove main`: with confirmation, exactly the first entry matching the
    stripped target ignoring case is removed, the others keep their order, and
    its folder is deleted with everything under it; with no match or no
    confirmation nothing changes.
   */
  function RemoveMain(st: State, inp: Input): (r: Step<State>)
    ensures r.Step? ==> |inp| > 0 && |r.rest| < |inp| && Suffix(r.rest, inp)
    ensures |inp| > 0 && FindEntry(st.cfg, Strip(inp[0])).None? ==> r == Step(st, inp[1..])
    ensures |inp| > 1 && FindEntry(st.cfg, Strip(inp[0])).Some? && Answer(inp[1]) != "y" ==>
      r == Step(st, inp[2..])
    ensures |inp| > 1 && FindEntry(st.cfg, Strip(inp[0])).Some? && Answer(inp[1]) == "y" ==>
      var i := FindEntry(st.cfg, Strip(inp[0])).value;
      && r.Step? && r.rest == inp[2..]
      && RemovedAt(st.cfg, r.value.cfg, i)
      && r.value.fs == RemoveTree(st.fs, st.cfg[i].folder)
    ensures r.Step? && WellFormed(st.cfg) ==> WellFormed(r.value.cfg)
  {
    if |inp| == 0 then EndOfInput
    else
      match FindEntry(st.cfg, Strip(inp[0]))
      case None => Step(st, inp[1..])
      case Some(i) =>
        if |inp| == 1 then EndOfInput
        else if Answer(inp[1]) != "y" then Step(st, inp[2..])
        else
          var cfg := RemoveAt(st.cfg, i);
          RemovedAtShape(st.cfg, i);
          WellFormedRemoved(st.cfg, cfg, i);
          Step(State(cfg, RemoveTree(st.fs, st.cfg[i].folder)), inp[2..])
  }

  /**
    Removing, with confirmation, a name that only the last entry carries
    (ignoring case) leaves the entries before it.
   */
  lemma RemoveLastMain(st: State, prev: Config, script: Input)
    requires |st.cfg| == |prev| + 1 && st.cfg[..|prev|] == prev
    requires |script| > 1 && Answer(script[1]) == "y"
    requires SameName(st.cfg[|prev|].display, Strip(script[0]))
    requires forall j :: 0 <= j < |prev| ==> !SameName(prev[j].display, Strip(script[0]))
    ensures RemoveMain(st, script).Step? && RemoveMain(st, script).value.cfg == prev
  {
    var n := |prev|;
    forall j | 0 <= j < n
      ensures !SameName(st.cfg[j].display, Strip(script[0]))
    {
      assert st.cfg[j] == st.cfg[..n][j];
    }
    FindEntryAt(st.cfg, Strip(script[0]), n);
    var r := RemoveMain(st, script).value;
    assert r.cfg == r.cfg[..n] == st.cfg[..n];
  }

  /**
    Adding a main entry under a name no entry has yet (ignoring case), then
    removing the same name with a confirming answer, gives the configuration
    back.
   */
  lemma AddThenRemoveMain(st: State, inp: Input, script: Input)
    requires |inp| > 0 && Strip(inp[0]) != []
    requires forall j :: 0 <= j < |st.cfg| ==> !SameName(st.cfg[j].display, Strip(inp[0]))
    requires AddMain(st, inp).Step?
    requires |script| > 1 && script[0] == inp[0] && Answer(script[1]) == "y"
    ensures RemoveMain(AddMain(st, inp).value, script).Step?
    ensures RemoveMain(AddMain(st, inp).value, script).value.cfg == st.cfg
  {
    RemoveLastMain(AddMain(st, inp).value, st.cfg, script);
  }

  /**
    The confirmed removal of page `k` of entry `i`: that page is popped from
    the entry alone, the entry keeps its display and folder, and only the
    page's file is deleted.
   */
  function DropPage(st: State, i: nat, k: nat): (r: State)
    requires i < |st.cfg| && st.cfg[i].MultiPage? && k < |st.cfg[i].pages|
    ensures OthersUnchanged(st.cfg, r.cfg, i)
    ensures r.cfg[i].MultiPage? && r.cfg[i].display == st.cfg[i].display && r.cfg[i].folder == st.cfg[i].folder
    ensures RemovedAt(st.cfg[i].pages, r.cfg[i].pages, k)
    ensures r.fs == RemoveFile(st.fs, st.cfg[i].pages[k].filePath)
    ensures WellFormed(st.cfg) ==> WellFormed(r.cfg)
  {
    var e := st.cfg[i];
    var e' := e.(pages := RemoveAt(e.pages, k));
    RemovedAtShape(e.pages, k);
    EntryOkRemovePage(e, k);
    UpdateOthersUnchanged(st.cfg, i, e');
    WellFormedUpdate(st.cfg, st.cfg[i := e'], i);
    State(st.cfg[i := e'], RemoveFile(st.fs, e.pages[k].filePath))
  }

  /**
    The page prompts of `remove sub` once the target entry `i` is multi-page:
    a page name matching none changes nothing; a match is dropped exactly when
    the operator confirms.
   */
  function RemoveSubFrom(st: State, i: nat, inp: Input): (r: Step<State>)
    requires i < |st.cfg| && st.cfg[i].MultiPage?
    ensures r.Step? ==> |inp| > 0 && |r.rest| < |inp| && Suffix(r.rest, inp)
    ensures |inp| > 0 && FindPage(st.cfg[i].pages, Strip(inp[0])).None? ==> r == Step(st, inp[1..])
    ensures |inp| > 1 && FindPage(st.cfg[i].pages, Strip(inp[0])).Some? ==>
      var k := FindPage(st.cfg[i].pages, Strip(inp[0])).value;
      r == if Answer(inp[1]) == "y" then Step(DropPage(st, i, k), inp[2..]) else Step(st, inp[2..])
    ensures r.Step? && r.value != st ==>
      && |inp| > 1 && FindPage(st.cfg[i].pages, Strip(inp[0])).Some? && Answer(inp[1]) == "y"
      && r.value == DropPage(st, i, FindPage(st.cfg[i].pages, Strip(inp[0])).value)
    ensures r.Step? && WellFormed(st.cfg) ==> WellFormed(r.value.cfg)
  {
    if |inp| == 0 then EndOfInput
    else
      match FindPage(st.cfg[i].pages, Strip(inp[0]))
      case None => Step(st, inp[1..])
      case Some(k) =>
        if |inp| == 1 then EndOfInput
        else if Answer(inp[1]) != "y" then Step(st, inp[2..])
        else Step(DropPage(st, i, k), inp[2..])
  }

  /**
    `remove sub`: the entry is looked up, then its page; with confirmation
    exactly that first matching page is dropped. A missing or standalone
    entry changes nothing, and only the target entry can change.
   */
  function RemoveSub(st: State, inp: Input): (r: Step<State>)
    ensures r.Step? ==> |inp| > 0 && |r.rest| < |inp| && Suffix(r.rest, inp)
    ensures |inp| > 0 && FindEntry(st.cfg, Strip(inp[0])).None? ==> r == Step(st, inp[1..])
    ensures |inp| > 0 && FindEntry(st.cfg, Strip(inp[0])).Some? ==>
      var i := FindEntry(st.cfg, Strip(inp[0])).value;
      r == if st.cfg[i].Standalone? then Step(st, inp[1..]) else RemoveSubFrom(st, i, inp[1..])
    ensures r.Step? && r.value != st ==>
      && FindEntry(st.cfg, Strip(inp[0])).Some?
      && OthersUnchanged(st.cfg, r.value.cfg, FindEntry(st.cfg, Strip(inp[0])).value)
    ensures r.Step? && WellFormed(st.cfg) ==> WellFormed(r.value.cfg)
  {
    if |inp| == 0 then EndOfInput
    else
      match FindEntry(st.cfg, Strip(inp[0]))
      case None => Step(st, inp[1..])
      case Some(i) =>
        if st.cfg[i].Standalone? then Step(st, inp[1..])
        else
          var r := RemoveSubFrom(st, i, inp[1..]);
          if r.Step? then SuffixTrans(r.rest, inp[1..], inp); r else r
  }

  /**
    One edit of `modify_config` once the operator has answered `add` or
    `remove` and then `main` or `sub`: the matching edit, or no change for
    any other second answer.
   */
  function Edit(st: State, choice: string, kind: string, inp: Input): (r: Step<State>)
    requires choice == "add" || choice == "remove"
    ensures r.Step? ==> |r.rest| <= |inp| && Suffix(r.rest, inp)
    ensures r.Step? && WellFormed(st.cfg) ==> WellFormed(r.value.cfg)
    ensures kind != "main" && kind != "sub" ==> r == Step(st, inp)
    ensures kind == "main" && choice == "add" ==> r == AddMain(st, inp)
    ensures kind == "main" && choice == "remove" ==> r == RemoveMain(st, inp)
    ensures kind == "sub" && choice == "add" ==> r == AddSub(st, inp)
    ensures kind == "sub" && choice == "remove" ==> r == RemoveSub(st, inp)
  {
    if kind == "main" then (if choice == "add" then AddMain(st, inp) else RemoveMain(st, inp))
    else if kind == "sub" then (if choice == "add" then AddSub(st, inp) else RemoveSub(st, inp))
    else Step(st, inp)
  }

  /**
    `modify_config`: repeats add/remove edits until the operator answers
    `none` or `n`, which stops with the configuration as it stands;
    unrecognised answers are ignored and the loop goes on; an `add` or
    `remove` answer applies the edit its second answer names and then loops
    on the edited state. A well-formed configuration stays well formed
    through any sequence of edits.
   */
  function ModifyConfig(st: State, inp: Input): (r: Step<State>)
    ensures r.Step? ==> Suffix(r.rest, inp)
    ensures r.Step? && WellFormed(st.cfg) ==> WellFormed(r.value.cfg)
    ensures |inp| > 0 && (Answer(inp[0]) == "none" || Answer(inp[0]) == "n") ==> r == Step(st, inp[1..])
    ensures |inp| > 0 && Answer(inp[0]) !in {"none", "n", "add", "remove"} ==> r == ModifyConfig(st, inp[1..])
    ensures |inp| > 1 && (Answer(inp[0]) == "add" || Answer(inp[0]) == "remove") ==>
      var e := Edit(st, Answer(inp[0]), Answer(inp[1]), inp[2..]);
      r == if e.Step? then ModifyConfig(e.value, e.rest) else EndOfInput
    decreases |inp|
  {
    if |inp| == 0 then EndOfInput
    else
      var choice := Answer(inp[0]);
      if choice == "none" || choice == "n" then Step(st, inp[1..])
      else if choice != "add" && choice != "remove" then
        var r := ModifyConfig(st, inp[1..]);
        if r.Step? then SuffixTrans(r.rest, inp[1..], inp); r else r
      else if |inp| == 1 then EndOfInput
      else
        var after := inp[2..];
        match Edit(st, choice, Answer(inp[1]), after)
        case EndOfInput => EndOfInput
        case Step(st', rest) =>
          SuffixTrans(rest, after, inp);
          var r := ModifyConfig(st', rest);
          if r.Step? then SuffixTrans(r.rest, rest, inp); r else r
  }
}

=== FILE: fs.dfy ===
/**
  An abstract file system: the set of existing directories and a map from
  file path to content. Only the calls the tool makes are modelled:
  `os.makedirs(..., exist_ok=True)`, `os.path.exists`, writing a new file,
  `shutil.rmtree` and `os.remove`.
 */
module FileSystem {

  datatype FS = FS(dirs: set<string>, files: map<string, string>)

  /** `os.path.exists(p)`: a directory or a file is there. */
  predicate Exists(fs: FS, p: string) {
    p in fs.dirs || p in fs.files
  }

  /** The directories `os.makedirs(p)` leaves in place: every `/`-delimited prefix of `p` and `p` itself. */
  function Ancestors(p: string): (r: set<string>)
    ensures |p| > 0 ==> p in r
    ensures forall i :: 0 < i < |p| && p[i] == '/' ==> p[..i] in r
    ensures forall q :: q in r ==> 0 < |q| <= |p| && q == p[..|q|] && (|q| == |p| || p[|q|] == '/')
  {
    assert |p| > 0 ==> p[..|p|] == p;
    set i | 0 < i <= |p| && (i == |p| || p[i] == '/') :: p[..i]
  }

  /** `os.makedirs(p, exist_ok=True)`. */
  function MakeDirs(fs: FS, p: string): FS {
    fs.(dirs := fs.dirs + Ancestors(p))
  }

  /** `if not os.path.exists(path): open(path, "w").write(content)`. */
  function WriteIfAbsent(fs: FS, path: string, content: string): (r: FS)
    ensures Exists(r, path)
    ensures r.dirs == fs.dirs
    ensures Exists(fs, path) ==> r == fs
    ensures !Exists(fs, path) ==> path in r.files && r.files[path] == content
    ensures forall q :: q != path ==> (q in r.files <==> q in fs.files)
    ensures forall q :: q in fs.files ==> q in r.files && r.files[q] == fs.files[q]
  {
    if Exists(fs, path) then fs else fs.(files := fs.files[path := content])
  }

  /** `p` is `root` or lies below it. */
  predicate Under(p: string, root: string) {
    p == root || (|p| > |root| && p[..|root|] == root && p[|root|] == '/')
  }

  /**
    `if os.path.exists(root): shutil.rmtree(root)`: everything at or below
    `root` disappears and nothing else changes.
   */
  function RemoveTree(fs: FS, root: string): (r: FS)
    ensures !Exists(fs, root) ==> r == fs
    ensures Exists(fs, root) ==> forall p :: Under(p, root) ==> !Exists(r, p)
    ensures forall p :: !Under(p, root) ==> (p in r.dirs <==> p in fs.dirs)
    ensures forall p :: !Under(p, root) ==> (p in r.files <==> p in fs.files)
    ensures forall p :: p in r.files ==> p in fs.files && r.files[p] == fs.files[p]
  {
    if !Exists(fs, root) then fs
    else
      FS(set d | d in fs.dirs && !Under(d, root),
         map f | f in fs.files && !Under(f, root) :: fs.files[f])
  }

  /** `if os.path.exists(path): os.remove(path)`: only that file goes; directories are left alone. */
  function RemoveFile(fs: FS, path: string): (r: FS)
    ensures path !in r.files
    ensures r.dirs == fs.dirs
    ensures forall p :: p != path ==> (p in r.files <==> p in fs.files)
    ensures forall p :: p in r.files ==> r.files[p] == fs.files[p]
  {
    if path in fs.files then fs.(files := fs.files - {path}) else fs
  }
}

=== FILE: menu.dfy ===
/**
  The menu configuration: a list of main entries, each either a category with
  sub-pages or a standalone page.
 */
module Menu {
  import opened Wrappers
  import opened Text
  import opened Console

  /** A sub-page: `{display, file_path, icon}`; an empty icon means none. */
  datatype Page = Page(display: string, filePath: string, icon: string)

  /** The single page of a standalone entry: `{file_path, icon}`, with no display of its own. */
  datatype Leaf = Leaf(filePath: string, icon: string)

  /** A main entry: multi-page (`pages`) or standalone (`page`), never both. */
  datatype Entry =
    | MultiPage(display: string, folder: string, pages: seq<Page>)
    | Standalone(display: string, folder: string, page: Leaf)

  type Config = seq<Entry>

  /** `f"{folder}/{name}.py"` */
  function FilePath(folder: string, name: string): string {
    folder + "/" + name + ".py"
  }

  /** `path` is `folder/<name>.py` for a valid file name. */
  predicate Owned(folder: string, path: string) {
    && |path| >= |folder| + 4
    && path[..|folder|] == folder
    && path[|folder|] == '/'
    && path[|path| - 3..] == ".py"
    && ValidFilename(path[|folder| + 1..|path| - 3])
  }

  /** A path built from a valid file name lies in the folder, and the name can be read back out of it. */
  lemma FilePathOwned(folder: string, name: string)
    requires ValidFilename(name)
    ensures Owned(folder, FilePath(folder, name))
    ensures FilePath(folder, name)[|folder| + 1..|FilePath(folder, name)| - 3] == name
  {
    var p := FilePath(folder, name);
    assert p[..|folder|] == folder;
    assert p[|folder| + 1..|p| - 3] == name;
    assert p[|p| - 3..] == ".py";
  }

  /** A sub-page as the editor builds it. */
  predicate PageOk(folder: string, p: Page) {
    IsName(p.display) && Owned(folder, p.filePath)
  }

  /** An entry as the editor builds it: trimmed label, folder is its slug, every page lies in the folder. */
  predicate EntryOk(e: Entry) {
    && IsName(e.display)
    && e.folder == Slug(e.display)
    && match e
       case MultiPage(_, f, ps) => forall j :: 0 <= j < |ps| ==> PageOk(f, ps[j])
       case Standalone(_, f, leaf) => Owned(f, leaf.filePath)
  }

  /** Every entry is as the editor builds it. */
  predicate WellFormed(cfg: Config) {
    forall i :: 0 <= i < |cfg| ==> EntryOk(cfg[i])
  }

  /** A well-formed configuration extended at the front by a well-formed entry stays well formed. */
  lemma WellFormedCons(e: Entry, cfg: Config)
    ensures EntryOk(e) && WellFormed(cfg) ==> WellFormed([e] + cfg)
  {
    if EntryOk(e) && WellFormed(cfg) {
      forall i | 0 <= i < |cfg| + 1
        ensures EntryOk(([e] + cfg)[i])
      {
        if i > 0 {
          assert ([e] + cfg)[i] == cfg[i - 1];
        }
      }
    }
  }

  /** A well-formed configuration extended at the back by a well-formed entry stays well formed. */
  lemma WellFormedSnoc(cfg: Config, e: Entry)
    ensures WellFormed(cfg) && EntryOk(e) ==> WellFormed(cfg + [e])
  {
    if WellFormed(cfg) && EntryOk(e) {
      forall i | 0 <= i < |cfg| + 1
        ensures EntryOk((cfg + [e])[i])
      {
        if i < |cfg| {
          assert (cfg + [e])[i] == cfg[i];
        }
      }
    }
  }

  /** A well-formed multi-page entry given one more page of its own stays well formed. */
  lemma EntryOkSnoc(e: Entry, p: Page)
    requires e.MultiPage?
    ensures EntryOk(e) && PageOk(e.folder, p) ==> EntryOk(e.(pages := e.pages + [p]))
  {
    if EntryOk(e) && PageOk(e.folder, p) {
      var ps := e.pages + [p];
      forall j | 0 <= j < |ps|
        ensures PageOk(e.folder, ps[j])
      {
        if j < |e.pages| {
          assert ps[j] == e.pages[j];
        }
      }
    }
  }

  /** A well-formed multi-page entry with one page popped stays well formed. */
  lemma EntryOkRemovePage(e: Entry, k: nat)
    requires e.MultiPage? && k < |e.pages|
    ensures EntryOk(e) ==> EntryOk(e.(pages := RemoveAt(e.pages, k)))
  {
    if EntryOk(e) {
      var ps := RemoveAt(e.pages, k);
      forall j | 0 <= j < |ps|
        ensures PageOk(e.folder, ps[j])
      {
        if j >= k {
          assert ps[j] == e.pages[j + 1];
        }
      }
    }
  }

  /** Index of the first element satisfying `p`, as a `for ... break` loop finds it. */
  function FirstMatch<T>(xs: seq<T>, p: T -> bool): (r: Option<nat>)
    ensures r.Some? ==> r.value < |xs| && p(xs[r.value])
    ensures r.Some? ==> forall j :: 0 <= j < r.value ==> !p(xs[j])
    ensures r.None? ==> forall j :: 0 <= j < |xs| ==> !p(xs[j])
  {
    if |xs| == 0 then None
    else if p(xs[0]) then Some(0)
    else
      match FirstMatch(xs[1..], p)
      case None => None
      case Some(i) => Some(i + 1)
  }

  /** The editor's lookup of a main entry: first display equal to `target` ignoring case. */
  function FindEntry(cfg: Config, target: string): (r: Option<nat>)
    ensures r.Some? ==> r.value < |cfg| && SameName(cfg[r.value].display, target)
    ensures r.Some? ==> forall j :: 0 <= j < r.value ==> !SameName(cfg[j].display, target)
    ensures r.None? ==> forall j :: 0 <= j < |cfg| ==> !SameName(cfg[j].display, target)
  {
    FirstMatch(cfg, (e: Entry) => SameName(e.display, target))
  }

  /** The lookup lands on the first entry whose display matches. */
  lemma FindEntryAt(cfg: Config, target: string, n: nat)
    requires n < |cfg| && SameName(cfg[n].display, target)
    requires forall j :: 0 <= j < n ==> !SameName(cfg[j].display, target)
    ensures FindEntry(cfg, target) == Some(n)
  {
  }

  /** The editor's lookup of a sub-page: first display equal to `target` ignoring case. */
  function FindPage(pages: seq<Page>, target: string): (r: Option<nat>)
    ensures r.Some? ==> r.value < |pages| && SameName(pages[r.value].display, target)
    ensures r.Some? ==> forall j :: 0 <= j < r.value ==> !SameName(pages[j].display, target)
    ensures r.None? ==> forall j :: 0 <= j < |pages| ==> !SameName(pages[j].display, target)
  {
    FirstMatch(pages, (p: Page) => SameName(p.display, target))
  }

  /** `xs` with element `i` taken out (`list.pop(i)`), the others in their order. */
  function RemoveAt<T>(xs: seq<T>, i: nat): (r: seq<T>)
    requires i < |xs|
    ensures |r| == |xs| - 1
    ensures forall j :: 0 <= j < i ==> r[j] == xs[j]
    ensures forall j :: i < j < |xs| ==> r[j - 1] == xs[j]
  {
    xs[..i] + xs[i + 1..]
  }
}

=== FILE: navigation.dfy ===
/**
  The script the tool emits (`generated_app.py`): it registers one page per
  sub-page and one per standalone entry in a dictionary keyed by slug, then
  resolves the sidebar's category and option choice to a registered page.
  A Streamlit page is a plain record here.
 */
module Navigation {
  import opened Wrappers
  import opened Text
  import opened Menu

  /** `st.Page(file_path, title=..., icon=...)`; the icon is passed only when present. */
  datatype NavPage = NavPage(filePath: string, title: string, icon: Option<string>)

  /** One `pages[var_name] = st.Page(...)` assignment. */
  datatype Reg = Reg(key: string, page: NavPage)

  /** `if page.get('icon')`: an icon is attached exactly when it is a non-empty string. */
  function IconOf(icon: string): (r: Option<string>)
    ensures r.Some? <==> icon != []
    ensures r.Some? ==> r.value == icon
  {
    if icon == [] then None else Some(icon)
  }

  /** The registration of a sub-page. */
  function PageReg(p: Page): Reg {
    Reg(Slug(p.display), NavPage(p.filePath, p.display, IconOf(p.icon)))
  }

  /** The registrations one entry makes, in order. */
  function EntryRegs(e: Entry): seq<Reg> {
    match e
    case MultiPage(_, _, pages) => seq(|pages|, j requires 0 <= j < |pages| => PageReg(pages[j]))
    case Standalone(d, f, leaf) => [Reg(f, NavPage(leaf.filePath, d, IconOf(leaf.icon)))]
  }

  /** The registrations of the whole configuration, in the order the loop makes them. */
  function Regs(cfg: Config): seq<Reg> {
    if |cfg| == 0 then [] else EntryRegs(cfg[0]) + Regs(cfg[1..])
  }

  /**
    Entry `e` registers `page` under `key`: a sub-page under the slug of its
    display, titled with that display; a standalone page under the entry's
    folder, titled with the entry's display.
   */
  predicate Registers(e: Entry, key: string, page: NavPage) {
    match e
    case MultiPage(_, _, pages) =>
      exists j :: 0 <= j < |pages| && key == Slug(pages[j].display)
        && page == NavPage(pages[j].filePath, pages[j].display, IconOf(pages[j].icon))
    case Standalone(d, f, leaf) =>
      key == f && page == NavPage(leaf.filePath, d, IconOf(leaf.icon))
  }

  /** An entry's registrations are exactly what `Registers` describes. */
  lemma EntryRegsExactly(e: Entry, r: Reg)
    ensures r in EntryRegs(e) <==> Registers(e, r.key, r.page)
  {
    if e.MultiPage? && Registers(e, r.key, r.page) {
      var j :| 0 <= j < |e.pages| && r.key == Slug(e.pages[j].display)
        && r.page == NavPage(e.pages[j].filePath, e.pages[j].display, IconOf(e.pages[j].icon));
      assert EntryRegs(e)[j] == r;
    }
  }

  /** A registration of the configuration comes from one of its entries, and every entry's registrations are made. */
  lemma {:induction false} RegsMember(cfg: Config, r: Reg)
    ensures r in Regs(cfg) <==> exists i :: 0 <= i < |cfg| && r in EntryRegs(cfg[i])
    decreases |cfg|
  {
    if |cfg| > 0 {
      RegsMember(cfg[1..], r);
      if exists i :: 0 <= i < |cfg| && r in EntryRegs(cfg[i]) {
        var i :| 0 <= i < |cfg| && r in EntryRegs(cfg[i]);
        if i > 0 {
          assert cfg[1..][i - 1] == cfg[i];
        }
      }
      if r in Regs(cfg[1..]) {
        var i :| 0 <= i < |cfg| - 1 && r in EntryRegs(cfg[1..][i]);
        assert cfg[1..][i] == cfg[i + 1];
      }
    }
  }

  /** Map assignment left to right: a later registration under the same key overwrites an earlier one. */
  function Assign(m: map<string, NavPage>, rs: seq<Reg>): (r: map<string, NavPage>)
    decreases |rs|
  {
    if |rs| == 0 then m else Assign(m[rs[0].key := rs[0].page], rs[1..])
  }

  /** The `pages` dictionary the script builds: its keys are exactly the keys registered. */
  function Registry(cfg: Config): (r: map<string, NavPage>)
    ensures forall key :: key in r <==> exists j :: 0 <= j < |Regs(cfg)| && Regs(cfg)[j].key == key
  {
    AssignKeys(Regs(cfg));
    Assign(map[], Regs(cfg))
  }

  /** Starting from an empty dictionary, a key ends up present exactly when some registration uses it. */
  lemma AssignKeys(rs: seq<Reg>)
    ensures forall key :: key in Assign(map[], rs) <==> exists j :: 0 <= j < |rs| && rs[j].key == key
  {
    forall key
      ensures key in Assign(map[], rs) <==> exists j :: 0 <= j < |rs| && rs[j].key == key
    {
      if LastIndex(rs, key).None? {
        AssignUntouched(map[], rs, key);
      } else {
        AssignLast(map[], rs, LastIndex(rs, key).value);
      }
    }
  }

  /** Reference reading of the dictionary: the last registration under `key`, found from the end. */
  function LastIndex(rs: seq<Reg>, key: string): (r: Option<nat>)
    ensures r.Some? ==> r.value < |rs| && rs[r.value].key == key
    ensures r.Some? ==> forall j :: r.value < j < |rs| ==> rs[j].key != key
    ensures r.None? ==> forall j :: 0 <= j < |rs| ==> rs[j].key != key
  {
    if |rs| == 0 then None
    else if rs[|rs| - 1].key == key then Some(|rs| - 1)
    else LastIndex(rs[..|rs| - 1], key)
  }

  /** A key no registration uses keeps whatever it had. */
  lemma {:induction false} AssignUntouched(m: map<string, NavPage>, rs: seq<Reg>, key: string)
    requires forall j :: 0 <= j < |rs| ==> rs[j].key != key
    ensures key in Assign(m, rs) <==> key in m
    ensures key in m ==> Assign(m, rs)[key] == m[key]
    decreases |rs|
  {
    if |rs| > 0 {
      AssignUntouched(m[rs[0].key := rs[0].page], rs[1..], key);
    }
  }

  /** After the assignments, a key holds the page of the last registration made under it. */
  lemma {:induction false} AssignLast(m: map<string, NavPage>, rs: seq<Reg>, n: nat)
    requires n < |rs|
    requires forall j :: n < j < |rs| ==> rs[j].key != rs[n].key
    ensures rs[n].key in Assign(m, rs) && Assign(m, rs)[rs[n].key] == rs[n].page
    decreases |rs|
  {
    if n == 0 {
      AssignUntouched(m[rs[0].key := rs[0].page], rs[1..], rs[0].key);
    } else {
      AssignLast(m[rs[0].key := rs[0].page], rs[1..], n - 1);
    }
  }

  /**
    The dictionary agrees with the reference reading: a key is present exactly
    when some registration uses it, and then holds the last such registration.
   */
  lemma RegistryIsLastWrite(cfg: Config, key: string)
    ensures key in Registry(cfg) <==> LastIndex(Regs(cfg), key).Some?
    ensures key in Registry(cfg) ==> Registry(cfg)[key] == Regs(cfg)[LastIndex(Regs(cfg), key).value].page
  {
    var rs := Regs(cfg);
    match LastIndex(rs, key)
    case None => AssignUntouched(map[], rs, key);
    case Some(n) => AssignLast(map[], rs, n);
  }

  /**
    Every page in the dictionary was registered by some entry under that key,
    with the title and icon that entry gives it.
   */
  lemma RegistryFromEntries(cfg: Config, key: string)
    requires key in Registry(cfg)
    ensures exists i :: 0 <= i < |cfg| && Registers(cfg[i], key, Registry(cfg)[key])
  {
    RegistryIsLastWrite(cfg, key);
    var rs := Regs(cfg);
    var n := LastIndex(rs, key).value;
    RegsMember(cfg, rs[n]);
    var i :| 0 <= i < |cfg| && rs[n] in EntryRegs(cfg[i]);
    EntryRegsExactly(cfg[i], rs[n]);
  }

  /** Every registration an entry makes leaves its key in the dictionary. */
  lemma Registered(cfg: Config, i: nat, r: Reg)
    requires i < |cfg| && r in EntryRegs(cfg[i])
    ensures r.key in Registry(cfg)
  {
    RegsMember(cfg, r);
    var n :| 0 <= n < |Regs(cfg)| && Regs(cfg)[n] == r;
    RegistryIsLastWrite(cfg, r.key);
  }

  /** The key the sidebar recomputes for a sub-page, and the folder of a standalone entry, are both registered. */
  lemma KeysConsistent(cfg: Config, i: nat)
    requires i < |cfg|
    ensures cfg[i].Standalone? ==> cfg[i].folder in Registry(cfg)
    ensures cfg[i].MultiPage? ==> forall j :: 0 <= j < |cfg[i].pages| ==> Slug(cfg[i].pages[j].display) in Registry(cfg)
  {
    var e := cfg[i];
    if e.Standalone? {
      Registered(cfg, i, EntryRegs(e)[0]);
    } else {
      forall j | 0 <= j < |e.pages|
        ensures Slug(e.pages[j].display) in Registry(cfg)
      {
        Registered(cfg, i, EntryRegs(e)[j]);
      }
    }
  }

  /**
    The sidebar: the first entry whose display equals `category` exactly
    (case-sensitive), then the page registered under the slug of the chosen
    option for a multi-page entry, or under the folder for a standalone one.
    `option` is `None` when the option list is empty. `None` means the script
    finds no page to run.
   */
  function Resolve(cfg: Config, category: string, option: Option<string>): (r: Option<NavPage>)
    ensures r.Some? ==> exists i :: 0 <= i < |cfg| && cfg[i].display == category
    ensures r.Some? ==> exists key :: key in Registry(cfg) && r.value == Registry(cfg)[key]
  {
    match FirstMatch(cfg, (e: Entry) => e.display == category)
    case None => None
    case Some(i) =>
      var e := cfg[i];
      if e.MultiPage? then
        match option
        case None => None
        case Some(o) => if Slug(o) in Registry(cfg) then Some(Registry(cfg)[Slug(o)]) else None
      else if e.folder in Registry(cfg) then Some(Registry(cfg)[e.folder])
      else None
  }

  /**
    Resolution never misses: any category the sidebar offers, with any option
    of the entry it selects, yields the page last registered under the key.
   */
  lemma ResolveNeverMisses(cfg: Config, c: nat, j: nat)
    requires c < |cfg|
    requires var i := FirstMatch(cfg, (e: Entry) => e.display == cfg[c].display).value;
      cfg[i].MultiPage? ==> j < |cfg[i].pages|
    ensures var i := FirstMatch(cfg, (e: Entry) => e.display == cfg[c].display).value;
      var key := if cfg[i].MultiPage? then Slug(cfg[i].pages[j].display) else cfg[i].folder;
      var option := if cfg[i].MultiPage? then Some(cfg[i].pages[j].display) else None;
      && LastIndex(Regs(cfg), key).Some?
      && Resolve(cfg, cfg[c].display, option) == Some(Regs(cfg)[LastIndex(Regs(cfg), key).value].page)
  {
    var i := FirstMatch(cfg, (e: Entry) => e.display == cfg[c].display).value;
    KeysConsistent(cfg, i);
    var key := if cfg[i].MultiPage? then Slug(cfg[i].pages[j].display) else cfg[i].folder;
    RegistryIsLastWrite(cfg, key);
  }

  /** The sidebar's category match is case-sensitive, unlike the editor's lookup. */
  lemma CategoryMatchIsExact(cfg: Config)
    requires cfg == [Standalone("Home", "home", Leaf("home/home.py", ""))]
    ensures Resolve(cfg, "home", None) == None
    ensures FindEntry(cfg, "home") == Some(0)
  {
    assert "Home" != "home";
    assert Lower("Home") == "home" == Lower("home");
  }

  /** The registrations split where the configuration does. */
  lemma {:induction false} RegsSplit(cfg: Config, b: nat)
    requires b <= |cfg|
    ensures Regs(cfg) == Regs(cfg[..b]) + Regs(cfg[b..])
    decreases b
  {
    if b == 0 {
      assert cfg[..0] == [] && cfg[0..] == cfg;
    } else {
      RegsSplit(cfg[1..], b - 1);
      assert cfg[1..][..b - 1] == cfg[..b][1..];
      assert cfg[1..][b - 1..] == cfg[b..];
      assert cfg[..b][0] == cfg[0];
    }
  }

  /** A registration of entry `b` sits after those of the entries before it. */
  lemma RegOfEntryAt(cfg: Config, b: nat, r: Reg)
    requires b < |cfg| && r in EntryRegs(cfg[b])
    ensures exists m :: |Regs(cfg[..b])| <= m < |Regs(cfg)| && Regs(cfg)[m] == r
  {
    RegsSplit(cfg, b);
    assert cfg[b..][0] == cfg[b];
    assert Regs(cfg[b..]) == EntryRegs(cfg[b]) + Regs(cfg[b..][1..]);
    var t :| 0 <= t < |EntryRegs(cfg[b])| && EntryRegs(cfg[b])[t] == r;
    assert Regs(cfg)[|Regs(cfg[..b])| + t] == r;
  }

  /** A registration after those of the first `b` entries is made by entry `b` or a later one. */
  lemma RegOfLaterEntry(cfg: Config, b: nat, n: nat)
    requires b <= |cfg| && |Regs(cfg[..b])| <= n < |Regs(cfg)|
    ensures exists i :: b <= i < |cfg| && Regs(cfg)[n] in EntryRegs(cfg[i])
  {
    RegsSplit(cfg, b);
    var rn := Regs(cfg)[n];
    assert rn == Regs(cfg[b..])[n - |Regs(cfg[..b])|];
    RegsMember(cfg[b..], rn);
    var i' :| 0 <= i' < |cfg| - b && rn in EntryRegs(cfg[b..][i']);
    assert cfg[b..][i'] == cfg[b + i'];
  }

  /**
    Once entry `b` registers under a key, the dictionary's page for that key
    comes from entry `b` or a later one.
   */
  lemma LaterEntryWins(cfg: Config, b: nat, r: Reg)
    requires b < |cfg| && r in EntryRegs(cfg[b])
    ensures r.key in Registry(cfg)
    ensures exists i :: b <= i < |cfg| && Registers(cfg[i], r.key, Registry(cfg)[r.key])
  {
    RegOfEntryAt(cfg, b, r);
    RegistryIsLastWrite(cfg, r.key);
    var n := LastIndex(Regs(cfg), r.key).value;
    RegOfLaterEntry(cfg, b, n);
    var i :| b <= i < |cfg| && Regs(cfg)[n] in EntryRegs(cfg[i]);
    EntryRegsExactly(cfg[i], Regs(cfg)[n]);
  }

  /**
    Two sub-pages whose displays are equal ignoring case share a key, and the
    later one wins: the dictionary holds, under that key, a page registered by
    the later entry or one after it, and that is what choosing the earlier
    page resolves to when the sidebar selects its entry.
   */
  lemma SlugCollisionLastWins(cfg: Config, a: nat, j: nat, b: nat, k: nat)
    requires a < b < |cfg|
    requires cfg[a].MultiPage? && j < |cfg[a].pages|
    requires cfg[b].MultiPage? && k < |cfg[b].pages|
    requires SameName(cfg[a].pages[j].display, cfg[b].pages[k].display)
    ensures var key := Slug(cfg[a].pages[j].display);
      && key in Registry(cfg)
      && exists i :: b <= i < |cfg| && Registers(cfg[i], key, Registry(cfg)[key])
    ensures FirstMatch(cfg, (e: Entry) => e.display == cfg[a].display) == Some(a) ==>
      var key := Slug(cfg[a].pages[j].display);
      key in Registry(cfg) && Resolve(cfg, cfg[a].display, Some(cfg[a].pages[j].display)) == Some(Registry(cfg)[key])
  {
    SlugOfSameName(cfg[a].pages[j].display, cfg[b].pages[k].display);
    var rb := PageReg(cfg[b].pages[k]);
    assert EntryRegs(cfg[b])[k] == rb;
    LaterEntryWins(cfg, b, rb);
  }

  /**
    A concrete collision: pages "Map" and "map" in two entries share the key
    `map`, and choosing "Map" under the first entry runs the second's file.
   */
  lemma SlugCollisionExample(cfg: Config)
    requires cfg == [MultiPage("A", "a", [Page("Map", "a/one.py", "")]),
                     MultiPage("B", "b", [Page("map", "b/two.py", "")])]
    ensures Resolve(cfg, "A", Some("Map")) == Some(NavPage("b/two.py", "map", None))
  {
    assert Slug("Map") == "map" == Slug("map");
    var r0 := Reg("map", NavPage("a/one.py", "Map", None));
    var r1 := Reg("map", NavPage("b/two.py", "map", None));
    assert EntryRegs(cfg[0]) == [r0];
    assert EntryRegs(cfg[1]) == [r1];
    assert Regs(cfg[1..]) == [r1] + Regs(cfg[1..][1..]);
    assert Regs(cfg) == [Reg("map", NavPage("a/one.py", "Map", None)), Reg("map", NavPage("b/two.py", "map", None))];
    AssignLast(map[], Regs(cfg), 1);
  }
}

=== FILE: scaffold.dfy ===
/**
  `create_folders_and_files`: for every entry, in order, create its folder,
  then create each page file that does not exist yet with a one-line
  placeholder. The nested loops are flattened into a list of steps run left
  to right, in the same order.
 */
module Scaffolder {
  import opened Wrappers
  import opened Menu
  import opened FileSystem

  /** One step of the scaffolder. */
  datatype Op = MkDir(path: string) | Create(path: string, caption: string)

  /** The text of a new page file. */
  function Placeholder(caption: string): string {
    "# Empty script for " + caption + "\n"
  }

  /** One step: create a folder with its parents, or write a placeholder file unless the path exists. */
  function Apply(fs: FS, op: Op): FS {
    match op
    case MkDir(p) => MakeDirs(fs, p)
    case Create(p, caption) => WriteIfAbsent(fs, p, Placeholder(caption))
  }

  /** Directories the steps create. */
  function DirsOf(ops: seq<Op>): set<string> {
    if |ops| == 0 then {}
    else (if ops[0].MkDir? then Ancestors(ops[0].path) else {}) + DirsOf(ops[1..])
  }

  /** Paths the steps may create files at. */
  function CreatedPaths(ops: seq<Op>): set<string> {
    if |ops| == 0 then {}
    else (if ops[0].Create? then {ops[0].path} else {}) + CreatedPaths(ops[1..])
  }

  /**
    Runs the steps: all their directories exist afterwards, every target path
    exists, no existing file is altered, files appear only at target paths and
    never where a directory stood.
   */
  function Run(ops: seq<Op>, fs: FS): (r: FS)
    ensures r.dirs == fs.dirs + DirsOf(ops)
    ensures forall p :: p in fs.files ==> p in r.files && r.files[p] == fs.files[p]
    ensures forall p :: p in r.files ==> p in fs.files || p in CreatedPaths(ops)
    ensures forall p :: p in CreatedPaths(ops) ==> Exists(r, p)
    ensures forall p :: p in fs.dirs && p !in fs.files ==> p !in r.files
    decreases |ops|
  {
    if |ops| == 0 then fs else Run(ops[1..], Apply(fs, ops[0]))
  }

  /** The caption of the first step that creates `path`. */
  function FirstLabel(ops: seq<Op>, path: string): Option<string> {
    if |ops| == 0 then None
    else if ops[0].Create? && ops[0].path == path then Some(ops[0].caption)
    else FirstLabel(ops[1..], path)
  }

  /** A file the steps create holds the placeholder of the first step that targets its path. */
  lemma {:induction false} RunNewFileLabel(ops: seq<Op>, fs: FS, p: string)
    ensures p in Run(ops, fs).files && p !in fs.files ==>
      FirstLabel(ops, p).Some? && Run(ops, fs).files[p] == Placeholder(FirstLabel(ops, p).value)
    decreases |ops|
  {
    if |ops| > 0 {
      var fs1 := Apply(fs, ops[0]);
      if ops[0].Create? && ops[0].path == p {
        if !Exists(fs, p) {
          assert fs1.files[p] == Placeholder(ops[0].caption);
        } else {
          assert p in fs1.dirs || p in fs.files;
        }
      } else {
        assert p in fs1.files <==> p in fs.files;
        RunNewFileLabel(ops[1..], fs1, p);
      }
    }
  }

  /** Running steps whose effects are already present changes nothing. */
  lemma {:induction false} RunSettled(ops: seq<Op>, fs: FS)
    requires DirsOf(ops) <= fs.dirs
    requires forall p :: p in CreatedPaths(ops) ==> Exists(fs, p)
    ensures Run(ops, fs) == fs
    decreases |ops|
  {
    if |ops| > 0 {
      assert Apply(fs, ops[0]) == fs;
      RunSettled(ops[1..], fs);
    }
  }

  /** Running the same steps twice is running them once. */
  lemma RunIdempotent(ops: seq<Op>, fs: FS)
    ensures Run(ops, Run(ops, fs)) == Run(ops, fs)
  {
    RunSettled(ops, Run(ops, fs));
  }

  /** The steps for one page list: one file per page, labelled with the page's display. */
  function PageOps(pages: seq<Page>): seq<Op> {
    if |pages| == 0 then []
    else [Create(pages[0].filePath, pages[0].display)] + PageOps(pages[1..])
  }

  /**
    The steps for one entry: its folder, then its page files. A standalone
    page's placeholder names the entry's display.
   */
  function EntryOps(e: Entry): seq<Op> {
    [MkDir(e.folder)] +
    match e
    case MultiPage(_, _, pages) => PageOps(pages)
    case Standalone(d, _, leaf) => [Create(leaf.filePath, d)]
  }

  /** The steps for a whole configuration, entry after entry. */
  function Ops(cfg: Config): seq<Op> {
    if |cfg| == 0 then [] else EntryOps(cfg[0]) + Ops(cfg[1..])
  }

  /** The file paths an entry names. */
  function EntryPaths(e: Entry): set<string> {
    match e
    case MultiPage(_, _, pages) => set j | 0 <= j < |pages| :: pages[j].filePath
    case Standalone(_, _, leaf) => {leaf.filePath}
  }

  /** The file paths a configuration names. */
  function PagePaths(cfg: Config): set<string> {
    if |cfg| == 0 then {} else EntryPaths(cfg[0]) + PagePaths(cfg[1..])
  }

  /** The directories a configuration's folders need. */
  function FolderDirs(cfg: Config): set<string> {
    if |cfg| == 0 then {} else Ancestors(cfg[0].folder) + FolderDirs(cfg[1..])
  }

  /** The folders and paths of concatenated step lists are those of the parts. */
  lemma {:induction false} OpsAppend(a: seq<Op>, b: seq<Op>)
    ensures DirsOf(a + b) == DirsOf(a) + DirsOf(b)
    ensures CreatedPaths(a + b) == CreatedPaths(a) + CreatedPaths(b)
    decreases |a|
  {
    if |a| == 0 {
      assert a + b == b;
    } else {
      assert (a + b)[0] == a[0];
      assert (a + b)[1..] == a[1..] + b;
      OpsAppend(a[1..], b);
    }
  }

  /** The page steps create no folder and target exactly the pages' paths. */
  lemma {:induction false} PageOpsShape(pages: seq<Page>)
    ensures DirsOf(PageOps(pages)) == {}
    ensures CreatedPaths(PageOps(pages)) == set j | 0 <= j < |pages| :: pages[j].filePath
    decreases |pages|
  {
    if |pages| > 0 {
      PageOpsShape(pages[1..]);
      var s := set j | 0 <= j < |pages| :: pages[j].filePath;
      var t := set j | 0 <= j < |pages| - 1 :: pages[1..][j].filePath;
      assert s == {pages[0].filePath} + t by {
        forall x | x in s ensures x in {pages[0].filePath} + t {
          var j :| 0 <= j < |pages| && pages[j].filePath == x;
          if j > 0 { assert pages[1..][j - 1].filePath == x; }
        }
      }
    }
  }

  /** An entry's steps create its folder's ancestors and target exactly the entry's paths. */
  lemma EntryOpsShape(e: Entry)
    ensures DirsOf(EntryOps(e)) == Ancestors(e.folder)
    ensures CreatedPaths(EntryOps(e)) == EntryPaths(e)
  {
    var tail := match e
      case MultiPage(_, _, pages) => PageOps(pages)
      case Standalone(d, _, leaf) => [Create(leaf.filePath, d)];
    assert EntryOps(e) == [MkDir(e.folder)] + tail;
    OpsAppend([MkDir(e.folder)], tail);
    if e.MultiPage? {
      PageOpsShape(e.pages);
    }
  }

  /** The steps for a configuration create exactly its folders and its page files. */
  lemma {:induction false} OpsShape(cfg: Config)
    ensures DirsOf(Ops(cfg)) == FolderDirs(cfg)
    ensures CreatedPaths(Ops(cfg)) == PagePaths(cfg)
    decreases |cfg|
  {
    if |cfg| > 0 {
      OpsShape(cfg[1..]);
      EntryOpsShape(cfg[0]);
      OpsAppend(EntryOps(cfg[0]), Ops(cfg[1..]));
    }
  }

  /** Every page path of a configuration is named by one of its entries. */
  lemma {:induction false} PagePathsOwner(cfg: Config, p: string)
    requires p in PagePaths(cfg)
    ensures exists i :: 0 <= i < |cfg| && p in EntryPaths(cfg[i])
    decreases |cfg|
  {
    if p !in EntryPaths(cfg[0]) {
      PagePathsOwner(cfg[1..], p);
      var i :| 0 <= i < |cfg[1..]| && p in EntryPaths(cfg[1..][i]);
      assert p in EntryPaths(cfg[i + 1]);
    }
  }

  /** `p` is a page path of some entry of `cfg`. */
  predicate NamedByEntry(cfg: Config, p: string)
  {
    exists i :: 0 <= i < |cfg| && p in EntryPaths(cfg[i])
  }

  /** Every page path of a configuration is named by one of its entries. */
  lemma PagePathsOwned(cfg: Config)
    ensures forall p :: p in PagePaths(cfg) ==> NamedByEntry(cfg, p)
  {
    forall p | p in PagePaths(cfg)
      ensures NamedByEntry(cfg, p)
    {
      PagePathsOwner(cfg, p);
    }
  }

  /** Each entry's folders and paths are among the configuration's. */
  lemma {:induction false} EntryWithinConfig(cfg: Config, i: int)
    requires 0 <= i < |cfg|
    ensures Ancestors(cfg[i].folder) <= FolderDirs(cfg)
    ensures EntryPaths(cfg[i]) <= PagePaths(cfg)
    decreases |cfg|
  {
    if i > 0 {
      EntryWithinConfig(cfg[1..], i - 1);
    }
  }

  /**
    `create_folders_and_files`: every entry's folder exists afterwards, every
    page file exists, no existing file changes, and new files appear only at
    the configuration's page paths.
   */
  function Scaffold(cfg: Config, fs: FS): (r: FS)
    ensures r.dirs == fs.dirs + FolderDirs(cfg)
    ensures forall i :: 0 <= i < |cfg| ==> Ancestors(cfg[i].folder) <= r.dirs
    ensures forall i, p :: 0 <= i < |cfg| && p in EntryPaths(cfg[i]) ==> Exists(r, p)
    ensures forall p :: p in fs.files ==> p in r.files && r.files[p] == fs.files[p]
    ensures forall p :: p in r.files ==> p in fs.files || p in PagePaths(cfg)
  {
    OpsShape(cfg);
    forall i | 0 <= i < |cfg|
      ensures Ancestors(cfg[i].folder) <= FolderDirs(cfg)
      ensures EntryPaths(cfg[i]) <= PagePaths(cfg)
    {
      EntryWithinConfig(cfg, i);
    }
    Run(Ops(cfg), fs)
  }

  /** Scaffolding twice gives the same file system as scaffolding once. */
  lemma ScaffoldIdempotent(cfg: Config, fs: FS)
    ensures Scaffold(cfg, Scaffold(cfg, fs)) == Scaffold(cfg, fs)
  {
    RunIdempotent(Ops(cfg), fs);
  }

  /**
    A file the scaffolder creates holds the placeholder naming the first page,
    in configuration order, with that path: the page's display for a
    multi-page entry, the entry's display for a standalone one.
   */
  lemma ScaffoldNewFileLabel(cfg: Config, fs: FS, p: string)
    requires p in Scaffold(cfg, fs).files && p !in fs.files
    ensures FirstLabel(Ops(cfg), p).Some?
    ensures Scaffold(cfg, fs).files[p] == Placeholder(FirstLabel(Ops(cfg), p).value)
  {
    RunNewFileLabel(Ops(cfg), fs, p);
  }

  /** The first step creating a path in concatenated steps is the first in the first part, if any. */
  lemma {:induction false} FirstLabelAppend(a: seq<Op>, b: seq<Op>, p: string)
    ensures FirstLabel(a + b, p) == if FirstLabel(a, p).Some? then FirstLabel(a, p) else FirstLabel(b, p)
    decreases |a|
  {
    if |a| == 0 {
      assert a + b == b;
    } else {
      assert (a + b)[0] == a[0];
      assert (a + b)[1..] == a[1..] + b;
      FirstLabelAppend(a[1..], b, p);
    }
  }

  /** Page `j` is the first of the pages with path `p`. */
  predicate FirstPageWith(pages: seq<Page>, p: string, j: int) {
    0 <= j < |pages| && pages[j].filePath == p && forall k :: 0 <= k < j ==> pages[k].filePath != p
  }

  /** The first page with a path labels the page steps with that page's display. */
  lemma {:induction false} PageOpsFirstLabel(pages: seq<Page>, p: string, j: nat)
    requires FirstPageWith(pages, p, j)
    ensures FirstLabel(PageOps(pages), p) == Some(pages[j].display)
    decreases j
  {
    if j > 0 {
      assert pages[0].filePath != p;
      PageOpsFirstLabel(pages[1..], p, j - 1);
    }
  }

  /** Page steps never label a path no page has. */
  lemma {:induction false} PageOpsNoLabel(pages: seq<Page>, p: string)
    requires forall k :: 0 <= k < |pages| ==> pages[k].filePath != p
    ensures FirstLabel(PageOps(pages), p) == None
    decreases |pages|
  {
    if |pages| > 0 {
      PageOpsNoLabel(pages[1..], p);
    }
  }

  /** An entry's steps label only the paths the entry names. */
  lemma EntryOpsNoLabel(e: Entry, p: string)
    requires p !in EntryPaths(e)
    ensures FirstLabel(EntryOps(e), p) == None
  {
    if e.MultiPage? {
      forall k | 0 <= k < |e.pages|
        ensures e.pages[k].filePath != p
      {
        assert e.pages[k].filePath in EntryPaths(e);
      }
      PageOpsNoLabel(e.pages, p);
      assert EntryOps(e)[1..] == PageOps(e.pages);
    } else {
      var t := [Create(e.page.filePath, e.display)];
      assert EntryOps(e)[1..] == t;
      assert t[1..] == [];
      assert FirstLabel(t, p) == None;
    }
  }

  /** The steps of the first entry naming a path decide its label. */
  lemma {:induction false} OpsLabelAt(cfg: Config, p: string, i: nat)
    requires i < |cfg| && forall k :: 0 <= k < i ==> p !in EntryPaths(cfg[k])
    requires FirstLabel(EntryOps(cfg[i]), p).Some?
    ensures FirstLabel(Ops(cfg), p) == FirstLabel(EntryOps(cfg[i]), p)
    decreases i
  {
    FirstLabelAppend(EntryOps(cfg[0]), Ops(cfg[1..]), p);
    if i > 0 {
      EntryOpsNoLabel(cfg[0], p);
      OpsLabelAt(cfg[1..], p, i - 1);
    }
  }

  /** The first entry naming a path labels it with the display of its first page with that path. */
  lemma OpsCaption(cfg: Config, p: string, i: nat)
    requires i < |cfg| && p in EntryPaths(cfg[i])
    requires forall k :: 0 <= k < i ==> p !in EntryPaths(cfg[k])
    ensures cfg[i].Standalone? ==> FirstLabel(Ops(cfg), p) == Some(cfg[i].display)
    ensures cfg[i].MultiPage? ==>
      forall j :: FirstPageWith(cfg[i].pages, p, j) ==> FirstLabel(Ops(cfg), p) == Some(cfg[i].pages[j].display)
  {
    var e := cfg[i];
    match e
    case Standalone(d, _, leaf) =>
      assert EntryOps(e)[1..] == [Create(leaf.filePath, d)];
      OpsLabelAt(cfg, p, i);
    case MultiPage(_, _, pages) =>
      forall j | FirstPageWith(pages, p, j)
        ensures FirstLabel(Ops(cfg), p) == Some(pages[j].display)
      {
        PageOpsFirstLabel(pages, p, j);
        assert EntryOps(e)[1..] == PageOps(pages);
        OpsLabelAt(cfg, p, i);
      }
  }

  /**
    A file the scaffolder creates names, in its placeholder, the first page
    in configuration order with that path: the entry's display for a
    standalone entry, the page's own display for a sub-page.
   */
  lemma ScaffoldNewFileCaption(cfg: Config, fs: FS, p: string, i: nat)
    requires p in Scaffold(cfg, fs).files && p !in fs.files
    requires i < |cfg| && p in EntryPaths(cfg[i])
    requires forall k :: 0 <= k < i ==> p !in EntryPaths(cfg[k])
    ensures cfg[i].Standalone? ==> Scaffold(cfg, fs).files[p] == Placeholder(cfg[i].display)
    ensures cfg[i].MultiPage? ==>
      forall j :: FirstPageWith(cfg[i].pages, p, j) ==>
        Scaffold(cfg, fs).files[p] == Placeholder(cfg[i].pages[j].display)
  {
    ScaffoldNewFileLabel(cfg, fs, p);
    OpsCaption(cfg, p, i);
  }

  /** The folder `account` has no parent to create. */
  lemma AccountAncestors()
    ensures Ancestors("account") == {"account"}
  {
    forall q | q in Ancestors("account")
      ensures q == "account"
    {
      var i :| 0 < i <= 7 && (i == 7 || "account"[i] == '/') && q == "account"[..i];
      assert i == 7;
    }
  }

  /** The Account configuration gives one folder step and one file step. */
  lemma AccountOps(cfg: Config)
    requires cfg == [MultiPage("Account", "account", [Page("Profile", "account/profile.py", "")])]
    ensures Ops(cfg) == [MkDir("account"), Create("account/profile.py", "Profile")]
  {
    assert PageOps(cfg[0].pages) == [Create("account/profile.py", "Profile")];
    assert Ops(cfg) == EntryOps(cfg[0]) + Ops([]);
  }

  /** Running two steps applies them in order. */
  lemma RunTwo(a: Op, b: Op, fs: FS)
    ensures Run([a, b], fs) == Apply(Apply(fs, a), b)
  {
    assert [a, b][1..] == [b];
    assert [b][1..] == [];
    var fs1 := Apply(fs, a);
    assert Run([a, b], fs) == Run([b], fs1);
    assert Run([b], fs1) == Run([], Apply(fs1, b));
  }

  /** Creating `account` in an empty tree adds just that folder. */
  lemma AccountFolder()
    ensures Apply(FS({}, map[]), MkDir("account")) == FS({"account"}, map[])
  {
    AccountAncestors();
  }

  /** Creating `account/profile.py` writes the Profile placeholder. */
  lemma AccountFile()
    ensures Apply(FS({"account"}, map[]), Create("account/profile.py", "Profile"))
         == FS({"account"}, map["account/profile.py" := "# Empty script for Profile\n"])
  {
    assert !Exists(FS({"account"}, map[]), "account/profile.py");
    assert Placeholder("Profile") == "# Empty script for Profile\n";
  }

  /** The worked example: a fresh tree gains `account/` and `account/profile.py` naming "Profile". */
  lemma AccountExample(cfg: Config)
    requires cfg == [MultiPage("Account", "account", [Page("Profile", "account/profile.py", "")])]
    ensures Scaffold(cfg, FS({}, map[])) == FS({"account"}, map["account/profile.py" := "# Empty script for Profile\n"])
  {
    AccountOps(cfg);
    RunTwo(MkDir("account"), Create("account/profile.py", "Profile"), FS({}, map[]));
    AccountFolder();
    AccountFile();
  }
}

=== FILE: session.dfy ===
/**
  One run of the tool: obtain a configuration (load a stored one or create a
  new one), optionally edit it, then write the navigation script and
  scaffold the folders and files. Stored configurations are given as a map
  from path to the configuration its JSON holds; reading and writing JSON is
  not modelled.
 */
module Session {
  import opened Text
  import opened Console
  import opened Menu
  import opened FileSystem
  import opened Scaffolder
  import opened Create
  import opened Editor
  import opened CodeGen

  /** The configuration file used when the operator gives no path. */
  const DefaultConfigPath: string := "menu_config.json"

  /**
    `load_config`: a blank path means the default; a stored configuration is
    used as it is, and a missing one falls back to `create_new_config`.
   */
  function LoadConfig(stored: map<string, Config>, inp: Input): (r: Step<Config>)
    ensures r.Step? ==> |inp| > 0 && |r.rest| < |inp| && Suffix(r.rest, inp)
    ensures |inp| > 0 ==>
      var path := if Strip(inp[0]) == [] then DefaultConfigPath else Strip(inp[0]);
      path in stored ==> r == Step(stored[path], inp[1..])
    ensures |inp| > 0 ==>
      var path := if Strip(inp[0]) == [] then DefaultConfigPath else Strip(inp[0]);
      path !in stored ==> r == CreateNewConfig(inp[1..])
  {
    if |inp| == 0 then EndOfInput
    else
      var path := if Strip(inp[0]) == [] then DefaultConfigPath else Strip(inp[0]);
      if path in stored then Step(stored[path], inp[1..])
      else
        var r := CreateNewConfig(inp[1..]);
        if r.Step? then SuffixTrans(r.rest, inp[1..], inp); r else r
  }

  /** The configuration the session starts from: loaded when the first answer is `y`, created otherwise. */
  function InitialConfig(stored: map<string, Config>, inp: Input): (r: Step<Config>)
    ensures r.Step? ==> |inp| > 0 && Suffix(r.rest, inp)
    ensures |inp| > 0 && Answer(inp[0]) == "y" ==> r == LoadConfig(stored, inp[1..])
    ensures |inp| > 0 && Answer(inp[0]) != "y" ==> r == CreateNewConfig(inp[1..])
    ensures r.Step? && |inp| > 0 && Answer(inp[0]) != "y" ==> WellFormed(r.value)
  {
    if |inp| == 0 then EndOfInput
    else
      var r := if Answer(inp[0]) == "y" then LoadConfig(stored, inp[1..]) else CreateNewConfig(inp[1..]);
      if r.Step? then SuffixTrans(r.rest, inp[1..], inp); r else r
  }

  /**
    The end of `main` on the file tree: the navigation script holds the fixed
    text, every entry's folder and page file exists, every other file that
    existed before keeps its contents, and the only new files are the script
    and the page files of `cfg`.
   */
  function WriteAndScaffold(cfg: Config, fs: FS): (r: FS)
    ensures OutputFile in r.files && r.files[OutputFile] == AppCode()
    ensures forall i :: 0 <= i < |cfg| ==> Ancestors(cfg[i].folder) <= r.dirs
    ensures forall i, p :: 0 <= i < |cfg| && p in EntryPaths(cfg[i]) ==> Exists(r, p)
    ensures forall p :: p in fs.files ==> p in r.files
    ensures forall p :: p in fs.files && p != OutputFile ==> r.files[p] == fs.files[p]
    ensures forall p :: p in r.files ==>
      p in fs.files || p == OutputFile || NamedByEntry(cfg, p)
  {
    PagePathsOwned(cfg);
    Scaffold(cfg, GenerateAppCode(cfg, fs))
  }

  /** The end of `main`: the configuration is kept and the file tree is written and scaffolded. */
  function Finish(st: State): (r: State)
    ensures r.cfg == st.cfg
    ensures OutputFile in r.fs.files && r.fs.files[OutputFile] == AppCode()
    ensures forall i :: 0 <= i < |r.cfg| ==> Ancestors(r.cfg[i].folder) <= r.fs.dirs
    ensures forall i, p :: 0 <= i < |r.cfg| && p in EntryPaths(r.cfg[i]) ==> Exists(r.fs, p)
    ensures forall p :: p in st.fs.files ==> p in r.fs.files
    ensures forall p :: p in st.fs.files && p != OutputFile ==> r.fs.files[p] == st.fs.files[p]
    ensures forall p :: p in r.fs.files ==>
      p in st.fs.files || p == OutputFile || NamedByEntry(st.cfg, p)
  {
    State(st.cfg, WriteAndScaffold(st.cfg, st.fs))
  }

  /** `main`: settle the configuration, edit it if asked to, then write the script and scaffold. */
  function RunTool(stored: map<string, Config>, fs: FS, inp: Input): (r: Step<State>)
    ensures r.Step? ==> Suffix(r.rest, inp)
    ensures r.Step? ==> OutputFile in r.value.fs.files && r.value.fs.files[OutputFile] == AppCode()
    ensures r.Step? ==> forall i :: 0 <= i < |r.value.cfg| ==> Ancestors(r.value.cfg[i].folder) <= r.value.fs.dirs
    ensures r.Step? ==> forall i, p :: 0 <= i < |r.value.cfg| && p in EntryPaths(r.value.cfg[i]) ==> Exists(r.value.fs, p)
    ensures var init := InitialConfig(stored, inp);
      init.Step? && |init.rest| > 0 && Answer(init.rest[0]) != "y" ==>
        r == Step(Finish(State(init.value, fs)), init.rest[1..])
    ensures var init := InitialConfig(stored, inp);
      init.Step? && |init.rest| > 0 && Answer(init.rest[0]) == "y" ==>
        var m := ModifyConfig(State(init.value, fs), init.rest[1..]);
        r == if m.Step? then Step(Finish(m.value), m.rest) else EndOfInput
  {
    match InitialConfig(stored, inp)
    case EndOfInput => EndOfInput
    case Step(cfg, rest) =>
      if |rest| == 0 then EndOfInput
      else
        var edited :=
          if Answer(rest[0]) == "y" then ModifyConfig(State(cfg, fs), rest[1..])
          else Step(State(cfg, fs), rest[1..]);
        match edited
        case EndOfInput => EndOfInput
        case Step(st, rest') =>
          SuffixTrans(rest', rest[1..], rest);
          SuffixTrans(rest', rest, inp);
          Step(Finish(st), rest')
  }

  /**
    A session that makes no edits keeps every earlier file except the script
    as it was, and adds only the script and the page files of its configuration.
   */
  lemma UneditedRunFiles(stored: map<string, Config>, fs: FS, inp: Input)
    ensures var init := InitialConfig(stored, inp);
      var run := RunTool(stored, fs, inp);
      run.Step? && init.Step? && |init.rest| > 0 && Answer(init.rest[0]) != "y" ==>
        var r := run.value;
        && r.cfg == init.value
        && (forall p :: p in fs.files && p != OutputFile ==> p in r.fs.files && r.fs.files[p] == fs.files[p])
        && (forall p :: p in r.fs.files ==> p in fs.files || p == OutputFile || NamedByEntry(r.cfg, p))
  {
  }

  /**
    A session that edits its configuration ends with every file the edits
    left, except the script, as the edits left it, and adds only the script
    and the page files of the edited configuration.
   */
  lemma EditedRunFiles(stored: map<string, Config>, fs: FS, inp: Input)
    ensures var init := InitialConfig(stored, inp);
      var run := RunTool(stored, fs, inp);
      run.Step? && init.Step? && |init.rest| > 0 && Answer(init.rest[0]) == "y" ==>
        var r := run.value;
        var m := ModifyConfig(State(init.value, fs), init.rest[1..]);
        && m.Step? && r.cfg == m.value.cfg
        && (forall p :: p in m.value.fs.files && p != OutputFile ==> p in r.fs.files && r.fs.files[p] == m.value.fs.files[p])
        && (forall p :: p in r.fs.files ==> p in m.value.fs.files || p == OutputFile || NamedByEntry(r.cfg, p))
  {
  }

  /** A session that creates its configuration afresh ends with a well-formed one, whatever the edits. */
  lemma FreshSessionWellFormed(stored: map<string, Config>, fs: FS, inp: Input)
    requires |inp| > 0 && Answer(inp[0]) != "y"
    requires RunTool(stored, fs, inp).Step?
    ensures WellFormed(RunTool(stored, fs, inp).value.cfg)
  {
    var init := InitialConfig(stored, inp);
    var rest := init.rest;
    if Answer(rest[0]) == "y" {
      var e := ModifyConfig(State(init.value, fs), rest[1..]);
      assert RunTool(stored, fs, inp).value.cfg == e.value.cfg;
    }
  }
}

=== FILE: text.dfy ===
/**
  String helpers with the meaning of the Python `str` methods the menu tool
  calls: `strip()`, `lower()`, `replace(" ", "_")`, `split(",")` and
  `"\n".join(...)`. Lower-casing is ASCII-only.
 */
module Text {

  /** Python's `str.isspace` on one code point. */
  predicate IsSpace(c: char) {
    var n := c as int;
    || n == 32
    || 9 <= n <= 13
    || 28 <= n <= 31
    || n == 0x85 || n == 0xA0 || n == 0x1680
    || 0x2000 <= n <= 0x200A
    || n == 0x2028 || n == 0x2029 || n == 0x202F || n == 0x205F || n == 0x3000
  }

  /** Index of the first non-whitespace character at or after `k`, or `|s|`. */
  function SkipSpaces(s: string, k: nat): (n: nat)
    requires k <= |s|
    ensures k <= n <= |s|
    ensures forall i :: k <= i < n ==> IsSpace(s[i])
    ensures n == |s| || !IsSpace(s[n])
    decreases |s| - k
  {
    if k < |s| && IsSpace(s[k]) then SkipSpaces(s, k + 1) else k
  }

  /** Index just after the last non-whitespace character before `m`, or 0. */
  function SkipSpacesBack(s: string, m: nat): (n: nat)
    requires m <= |s|
    ensures n <= m
    ensures forall i :: n <= i < m ==> IsSpace(s[i])
    ensures n == 0 || !IsSpace(s[n - 1])
  {
    if m > 0 && IsSpace(s[m - 1]) then SkipSpacesBack(s, m - 1) else m
  }

  /** A non-empty string with no whitespace at either end: what `strip()` leaves of a non-blank line. */
  predicate IsName(s: string) {
    |s| > 0 && !IsSpace(s[0]) && !IsSpace(s[|s| - 1])
  }

  /** Python's `str.strip()`: empty exactly for blank input, otherwise a name. */
  function Strip(s: string): (r: string)
    ensures r == [] || IsName(r)
    ensures r == [] <==> forall i :: 0 <= i < |s| ==> IsSpace(s[i])
  {
    var a := SkipSpaces(s, 0);
    var b := SkipSpacesBack(s, |s|);
    if a < b then s[a..b] else []
  }

  /**
    What `strip()` keeps is a slice of the line whose left and right
    remainders are whitespace only.
   */
  lemma StripSlice(s: string)
    ensures exists a, b ::
      && 0 <= a <= b <= |s| && Strip(s) == s[a..b]
      && (forall i :: 0 <= i < a ==> IsSpace(s[i]))
      && (forall i :: b <= i < |s| ==> IsSpace(s[i]))
  {
    var a := SkipSpaces(s, 0);
    var b := SkipSpacesBack(s, |s|);
    if a < b {
      assert Strip(s) == s[a..b];
    } else {
      assert Strip(s) == s[|s|..|s|];
    }
  }

  /** Stripping a name gives the name back. */
  lemma StripName(s: string)
    requires IsName(s)
    ensures Strip(s) == s
  {
    assert SkipSpaces(s, 0) == 0;
    assert SkipSpacesBack(s, |s|) == |s|;
  }

  /** Stripping twice is stripping once. */
  lemma StripIdempotent(s: string)
    ensures Strip(Strip(s)) == Strip(s)
  {
    if Strip(s) != [] {
      StripName(Strip(s));
    }
  }

  /** ASCII lower-casing of one character. */
  function LowerChar(c: char): char {
    if 'A' <= c <= 'Z' then (c as int + 32) as char else c
  }

  /** Lower-casing leaves no upper-case ASCII letter. */
  lemma LowerCharNotUpper(c: char)
    ensures !('A' <= LowerChar(c) <= 'Z')
  {
  }

  /** `str.lower()`, ASCII letters only. */
  function Lower(s: string): (r: string)
    ensures |r| == |s|
    ensures forall i :: 0 <= i < |s| ==> r[i] == LowerChar(s[i])
  {
    seq(|s|, i requires 0 <= i < |s| => LowerChar(s[i]))
  }

  /** `str.replace(a, b)` for single characters. */
  function ReplaceChar(s: string, a: char, b: char): (r: string)
    ensures |r| == |s|
    ensures forall i :: 0 <= i < |s| ==> r[i] == (if s[i] == a then b else s[i])
  {
    seq(|s|, i requires 0 <= i < |s| => if s[i] == a then b else s[i])
  }

  /** Case-insensitive equality as the editor tests it: `x.lower() == y.lower()`. */
  predicate SameName(x: string, y: string) {
    Lower(x) == Lower(y)
  }

  /** The folder / registry slug: `s.lower().replace(" ", "_")`. */
  function Slug(s: string): (r: string)
    ensures |r| == |s|
    ensures ' ' !in r
    ensures Lower(r) == r
    ensures forall i :: 0 <= i < |s| && s[i] != ' ' ==> r[i] == LowerChar(s[i])
    ensures forall i :: 0 <= i < |s| && s[i] == ' ' ==> r[i] == '_'
  {
    ReplaceChar(Lower(s), ' ', '_')
  }

  /** A slug is its own slug. */
  lemma SlugIdempotent(s: string)
    ensures Slug(Slug(s)) == Slug(s)
  {
  }

  /** Names that the editor treats as equal get the same slug. */
  lemma SlugOfSameName(x: string, y: string)
    requires SameName(x, y)
    ensures Slug(x) == Slug(y)
  {
    assert |x| == |y|;
    forall i | 0 <= i < |x|
      ensures Slug(x)[i] == Slug(y)[i]
    {
      assert Lower(x)[i] == Lower(y)[i];
    }
  }

  /** Python's `s.split(sep)`: always at least one part, no part holds `sep`. */
  function SplitOn(s: string, sep: char): (r: seq<string>)
    ensures |r| >= 1
    ensures forall i :: 0 <= i < |r| ==> sep !in r[i]
    decreases |s|
  {
    if |s| == 0 then [""]
    else
      var rest := SplitOn(s[1..], sep);
      if s[0] == sep then [""] + rest
      else [[s[0]] + rest[0]] + rest[1..]
  }

  /** Python's `sep.join(xs)`. */
  function Join(xs: seq<string>, sep: char): string
  {
    if |xs| == 0 then ""
    else if |xs| == 1 then xs[0]
    else xs[0] + [sep] + Join(xs[1..], sep)
  }

  /** A join ends with its last part. */
  lemma {:induction false} JoinEndsWithLast(xs: seq<string>, sep: char)
    requires |xs| > 0
    ensures |Join(xs, sep)| >= |xs[|xs| - 1]|
    ensures Join(xs, sep)[|Join(xs, sep)| - |xs[|xs| - 1]|..] == xs[|xs| - 1]
    decreases |xs|
  {
    if |xs| > 1 {
      JoinEndsWithLast(xs[1..], sep);
      var j := Join(xs[1..], sep);
      var w := xs[0] + [sep] + j;
      assert w[|w| - |j|..] == j;
    }
  }

  /** Joining the parts of a split gives the original string back. */
  lemma {:induction false} JoinSplit(s: string, sep: char)
    ensures Join(SplitOn(s, sep), sep) == s
    decreases |s|
  {
    if |s| > 0 {
      var rest := SplitOn(s[1..], sep);
      JoinSplit(s[1..], sep);
      if s[0] == sep {
        assert ([""] + rest)[1..] == rest;
      } else {
        var r := [[s[0]] + rest[0]] + rest[1..];
        if |rest| > 1 {
          assert r[1..] == rest[1..];
          assert Join(rest, sep) == rest[0] + [sep] + Join(rest[1..], sep);
        }
      }
    }
  }

  /** A string without the separator splits into itself. */
  lemma {:induction false} SplitWithoutSep(a: string, sep: char)
    requires sep !in a
    ensures SplitOn(a, sep) == [a]
    decreases |a|
  {
    if |a| > 0 {
      SplitWithoutSep(a[1..], sep);
      assert [a[0]] + a[1..] == a;
    }
  }

  /** Splitting `a + sep + t` yields `a` followed by the parts of `t`. */
  lemma {:induction false} SplitCons(a: string, t: string, sep: char)
    requires sep !in a
    ensures SplitOn(a + [sep] + t, sep) == [a] + SplitOn(t, sep)
    decreases |a|
  {
    var s := a + [sep] + t;
    if |a| == 0 {
      assert s[1..] == t;
    } else {
      assert s[1..] == a[1..] + [sep] + t;
      SplitCons(a[1..], t, sep);
      assert [a[0]] + a[1..] == a;
    }
  }

  /** Splitting a join of separator-free parts gives the parts back. */
  lemma {:induction false} SplitJoin(xs: seq<string>, sep: char)
    requires |xs| >= 1
    requires forall i :: 0 <= i < |xs| ==> sep !in xs[i]
    ensures SplitOn(Join(xs, sep), sep) == xs
    decreases |xs|
  {
    if |xs| == 1 {
      SplitWithoutSep(xs[0], sep);
    } else {
      SplitJoin(xs[1..], sep);
      SplitCons(xs[0], Join(xs[1..], sep), sep);
      assert [xs[0]] + xs[1..] == xs;
    }
  }

  /** Keeps the stripped non-blank parts, in order. */
  function KeepNames(parts: seq<string>): (r: seq<string>)
    ensures |r| <= |parts|
    ensures forall i :: 0 <= i < |r| ==> IsName(r[i])
  {
    if |parts| == 0 then []
    else
      var n := Strip(parts[0]);
      var rest := KeepNames(parts[1..]);
      if n == [] then rest
      else
        NamesCons(n, rest);
        [n] + rest
  }

  /** A name in front of names gives names. */
  lemma NamesCons(n: string, rest: seq<string>)
    requires IsName(n) && forall i :: 0 <= i < |rest| ==> IsName(rest[i])
    ensures forall i :: 0 <= i < |[n] + rest| ==> IsName(([n] + rest)[i])
  {
  }

  /**
    The comma-separated name list of the prompts:
    `[x.strip() for x in s.split(",") if x.strip()]`.
   */
  function ParseNames(s: string): (r: seq<string>)
    ensures forall i :: 0 <= i < |r| ==> IsName(r[i])
  {
    KeepNames(SplitOn(s, ','))
  }

  /** A line with no comma names its stripped text, or nothing when it is blank. */
  lemma ParseNamesOne(p: string)
    requires ',' !in p
    ensures ParseNames(p) == (if Strip(p) == [] then [] else [Strip(p)])
  {
    SplitWithoutSep(p, ',');
    assert KeepNames([p]) == (if Strip(p) == [] then [] else [Strip(p)]) + KeepNames([p][1..]);
  }

  /**
    The part before the first comma contributes its stripped text, when not
    blank, ahead of the names after the comma.
   */
  lemma ParseNamesCons(p: string, t: string)
    requires ',' !in p
    ensures ParseNames(p + [','] + t) == (if Strip(p) == [] then [] else [Strip(p)]) + ParseNames(t)
  {
    SplitCons(p, t, ',');
    assert ([p] + SplitOn(t, ','))[1..] == SplitOn(t, ',');
  }

  /** Names are kept unchanged and none is dropped. */
  lemma {:induction false} KeepNamesOfNames(xs: seq<string>)
    requires forall i :: 0 <= i < |xs| ==> IsName(xs[i])
    ensures KeepNames(xs) == xs
  {
    if |xs| > 0 {
      StripName(xs[0]);
      assert KeepNames(xs) == [xs[0]] + KeepNames(xs[1..]);
      forall i | 0 <= i < |xs[1..]|
        ensures IsName(xs[1..][i])
      {
        assert xs[1..][i] == xs[i + 1];
      }
      KeepNamesOfNames(xs[1..]);
      assert [xs[0]] + xs[1..] == xs;
    }
  }

  /** Typing names separated by commas yields exactly those names, in order. */
  lemma ParseJoinedNames(names: seq<string>)
    requires forall i :: 0 <= i < |names| ==> IsName(names[i]) && ',' !in names[i]
    ensures ParseNames(Join(names, ',')) == names
  {
    if |names| == 0 {
      assert SplitOn("", ',') == [""];
    } else {
      SplitJoin(names, ',');
      KeepNamesOfNames(names);
    }
  }

  /** Every part of a string made only of separators is empty. */
  lemma {:induction false} SplitOnlySeps(s: string, sep: char)
    requires forall i :: 0 <= i < |s| ==> s[i] == sep
    ensures forall k :: 0 <= k < |SplitOn(s, sep)| ==> SplitOn(s, sep)[k] == ""
    decreases |s|
  {
    if |s| > 0 {
      SplitOnlySeps(s[1..], sep);
    }
  }

  /** Empty parts are all dropped. */
  lemma {:induction false} KeepNoNames(parts: seq<string>)
    requires forall k :: 0 <= k < |parts| ==> parts[k] == ""
    ensures KeepNames(parts) == []
  {
    if |parts| > 0 {
      assert Strip(parts[0]) == [];
      KeepNoNames(parts[1..]);
    }
  }

  /** An answer made only of commas names nothing. */
  lemma OnlyCommasNameNothing(s: string)
    requires forall i :: 0 <= i < |s| ==> s[i] == ','
    ensures ParseNames(s) == []
  {
    SplitOnlySeps(s, ',');
    KeepNoNames(SplitOn(s, ','));
  }
}

=== FILE: wrappers.dfy ===
/** The optional-value datatype used across the model. */
module Wrappers {

  /** A present value or nothing (Python's `None`). */
  datatype Option<+T> = None | Some(value: T)
}
